=== FILE: README.md ===
# Event booking core — a Dafny model

This project models the business core of a Symfony event-booking backend in Dafny. Companies publish events with priced tiers. Users book them. A nightly command closes finished events. The code has these parts:

- **Event lifecycle.** The `Event` entity has its status codes (Canceled 0, Active 1, Closed 2). It also holds collections of bookings, price tiers and file names. The entity derives a price range from its tiers.
- **Event service.** `create` attaches an event to its company and raises every employee's active-events counter. `update` overwrites an event from a request. It replaces the schedule and tiers only while nobody has booked. `cancel` is allowed only more than two whole days before the start.
- **Close command.** It closes, one at a time, every event the repository hands it.
- **Points refund.** When a user leaves an event, the owning company's points balance is credited a percentage of the booking's commission. This happens when the whole hours between now and the event's start reach the refund threshold. The hours are counted in either direction, so a start already in the past counts too.
- **Validators.**
  - The Polish NIP tax identifier: the shape is generated from the constraint's options; the check digit uses weights 6,5,7,2,3,4,5,6,7 modulo 11.
  - Polish phone numbers: 9 digits, or 11 digits starting with `48`.
- **Company voter.** It decides `company:view` (membership) and `company:edit` (membership plus owner role).
- **User queries.** These are the filters of the favourites and blacklist searches. The id restriction to the listed users always applies. The gender filter needs a gender of exactly `"0"` or `"1"`. The rate, distance and age filters need their request parameters to be present and truthy.

Everything is a pure function over immutable records:

- Time is integer seconds in UTC, and `now` is a parameter.
- The refund threshold and percentage are parameters, as is the current year for the age filter.
- The great-circle distance function and the regular-expression matcher for a user-supplied NIP pattern are also parameters.
- Persistence (`persist`/`flush`) has no counterpart: an operation returns the new state.
- Object identity matters in `addEventDetail`/`removeEventDetail`, because Doctrine's `contains` compares instances. Each tier therefore carries a `ref`, and `update` draws new refs from a `firstRef` allocator parameter.

PCRE's `$` without the `D` modifier also matches before one final line feed. `Chars.Anchored` models this rule, and both the NIP and the phone validator use it.

Behaviour worth noting:

- The favourites distance filter is switched off by a `dist_from` of `"0"`, because PHP treats `"0"` as falsy.
- Cancelling an event without a start date is an error (`MissingStartDate`). In the code it is a fatal call on null.
- `cancel` does not reject a Closed event.

Files and modules:

| file | module | models |
|---|---|---|
| wrappers.dfy | Wrappers | `Option`, `Result` |
| seqs.dfy | Seqs | `Filter` (PHP `array_diff` / SQL `WHERE`), `RemoveFirst` (`ArrayCollection::removeElement`) |
| datetimes.dfy | DateTimes | `DateTime::diff` in UTC as a `DateInterval` |
| chars.dfy | Chars | digits, PCRE `$` anchoring |
| company.dfy | Companies | the slice of `Company`/`Employee` the core touches |
| event.dfy | Events | Entity/Event.php |
| event_service.dfy | EventService | Service/EventService.php |
| event_close_command.dfy | EventCloseCommand | Command/EventCloseCommand.php |
| points_refund.dfy | PointsRefund | EventSubscriber/PointsRefundSubscriber.php |
| nip.dfy | Nip | Validator/Nip.php, Validator/NipValidator.php |
| phone.dfy | Phone | Validator/PhoneValidator.php |
| company_voter.dfy | CompanyVoter | Voters/CompanyVoter.php |
| user_repository.dfy | UserRepository | Repository/UserRepository.php |

## Model

| member | source | states |
|---|---|---|
| Events.StatusCode | Entity/Event.php:20-22 | Canceled, Active and Closed are stored as 0, 1 and 2; every code is in 0..2 |
| Events.StatusFromCode | Entity/Event.php:20-22 | a stored integer names a status iff it is 0, 1 or 2, and the decoded status re-encodes to that integer |
| Events.StatusCodeRoundTrip | Entity/Event.php:20-22 | decoding the code of any status gives the status back |
| Events.NewEvent | Entity/Event.php:201-211 | a new event is Active and not limit-reached; its rating score, total and counter are 0; its users, tiers and files are empty; its creation time is now; both derived prices (the corrected lower price too) and the booking count are 0 |
| Events.AddUsers | Entity/Event.php:283-292 | the user is booked afterwards; a user already booked leaves the list as it was, otherwise the user is appended once |
| Events.RemoveUsers | Entity/Event.php:294-303 | exactly one occurrence of the user is removed when present; otherwise nothing changes |
| Events.AddUsersIdempotent | Entity/Event.php:283-292 | booking the same user twice is the same as booking once |
| Events.AddThenRemoveUsers | Entity/Event.php:283-303 | booking a user who was not booked and then removing them restores the users list |
| Events.GetUsers | Entity/Event.php:555-562 | the count is the explicit override when one is set, else the number of booked users |
| Events.AddUsersCount | Entity/Event.php:283-292 | without an override, booking a new user raises the count by exactly one and rebooking leaves it unchanged |
| Events.AddEventDetail | Entity/Event.php:325-333 | a tier already present leaves the collection unchanged; a new tier is appended exactly once |
| Events.RemoveEventDetail | Entity/Event.php:335-346 | an absent tier leaves the collection unchanged; a present one loses exactly one occurrence |
| Events.AddThenRemoveEventDetail | Entity/Event.php:325-346 | adding a new tier and then removing it restores the tiers |
| Events.ClearEventDetails | Entity/Event.php:349-358 | afterwards the tier collection is empty and no other field has changed |
| Events.AddFile | Entity/Event.php:538-543 | exactly one entry, the given name, is appended |
| Events.RemoveFile | Entity/Event.php:545-550 | every occurrence of the name is dropped, and each other name keeps its number of occurrences |
| Events.RemoveAbsentFile | Entity/Event.php:545-550 | removing a name that is not listed changes nothing |
| Events.RemoveFileKeepsOrder | Entity/Event.php:545-550 | removing a name from a concatenation equals removing it from each part, so the survivors keep their order |
| Events.AddThenRemoveFile | Entity/Event.php:538-550 | adding a name and then removing it is the same as removing it alone |
| Events.PriceFromScan | Entity/Event.php:575-588 | the scan returns either its start value or one of the tier prices |
| Events.PriceToScan | Entity/Event.php:590-603 | the scan returns either its start value or one of the tier prices |
| Events.PriceFrom | Entity/Event.php:575-588 | with no tiers the lower price is 0; it is always 0 or one of the tier prices |
| Events.PriceTo | Entity/Event.php:590-603 | with no tiers the upper price is 0; it is always 0 or one of the tier prices |
| Events.PriceFromIsLowest | Entity/Event.php:575-588 | when every price is positive, the lower price is the minimum of the tier prices |
| Events.PriceToIsHighest | Entity/Event.php:590-603 | when no price is negative, the upper price is the maximum of the tier prices |
| Events.PriceRangeOrdered | Entity/Event.php:575-603 | with positive prices, the lower price never exceeds the upper price |
| Events.PriceFromSkipsFreeTier | Entity/Event.php:575-588 | for tier prices 5, 0, 3 the lower price is 3, which is not the minimum |
| Events.LowestPrice | Entity/Event.php:575-588 | the intended lower price: the minimum of the tier prices, 0 when there are none |
| Events.LowestPriceAgrees | Entity/Event.php:575-588 | when every price is positive, the code's lower price equals the minimum |
| Events.LowestPriceRangeOrdered | Entity/Event.php:575-603 | with the corrected lower price, the range is ordered for any non-negative prices, free tiers included |
| Events.Close | Entity/Event.php:617-620 | the status becomes Closed and no other field changes |
| Events.CloseIdempotent | Entity/Event.php:617-620 | closing twice is the same as closing once |
| EventService.IncrementAllActive | Service/EventService.php:115-119 | every employee's active counter goes up by n, and nothing else about them changes |
| EventService.Create | Service/EventService.php:107-125 | fails with CategoryMissing iff there is no category; on success the event's company is set and nothing else changes; each employee's counter goes up by exactly one; the company is otherwise unchanged |
| EventService.AddEventDetailsAppends | Service/EventService.php:145-152 | adding distinct new tiers one by one appends them all, in order |
| EventService.Update | Service/EventService.php:127-161 | description, limit flag, phone, deposit flag and deposit amount always come from the request. With no bookings, the dates and calendar are replaced and the tiers are exactly the requested (title, price) list; given an allocator `firstRef` above every existing tier's ref, all of them are new objects and no old tier survives. With bookings, the dates, tiers and calendar are kept. Nothing else changes |
| EventService.UpdateBookedKeepsSchedule | Service/EventService.php:135 | once booked, an update leaves both derived prices, the corrected lower price and the booking count unchanged |
| EventService.CancelWindowExact | Service/EventService.php:198-204 | the whole-day window test passes iff the start lies at least three full days (259200 s) after now |
| EventService.Cancel | Service/EventService.php:196-216 | the error is MissingStartDate, then CancellationWindowExpired, then AlreadyCanceled. Success holds iff there is a start date at least three days away and the event is not already cancelled. On success the comment is stored verbatim, the status becomes Canceled, the end date becomes now, and nothing else changes |
| EventService.CancelNotRepeatable | Service/EventService.php:206-208 | a successfully cancelled event can never be cancelled again, at any later time |
| EventCloseCommand.ClosedAll | Command/EventCloseCommand.php:57-66 | closing every listed event keeps the set of stored events |
| EventCloseCommand.Sweep | Command/EventCloseCommand.php:59-66 | closing the listed events one at a time in order keeps the set of stored events |
| EventCloseCommand.SweepClosesListed | Command/EventCloseCommand.php:59-66 | the in-order sweep closes exactly the listed events, each once, whatever the order or repetitions |
| EventCloseCommand.Execute | Command/EventCloseCommand.php:53-67 | afterwards every listed event is the closed version of its stored state, with status Closed; unlisted events are unchanged; no event is added or dropped |
| EventCloseCommand.SweepPrefix | Command/EventCloseCommand.php:59-66 | after the first k events are processed, those k are closed and every other event is untouched |
| EventCloseCommand.SweepTwice | Command/EventCloseCommand.php:62 | running the sweep twice over the same list is the same as running it once |
| EventCloseCommand.SweepEmpty | Command/EventCloseCommand.php:59 | an empty list changes nothing |
| PointsRefund.SubscribedEvents | EventSubscriber/PointsRefundSubscriber.php:28-33 | the only subscription is the user_remove transition of the user_event_state workflow, handled by onUserRemove |
| PointsRefund.TruncDiv | EventSubscriber/PointsRefundSubscriber.php:64 | the PHP int cast of a quotient truncates toward zero: for a non-negative dividend q is the largest value with q*b at most a, for a negative one the smallest with q*b at least a |
| PointsRefund.RefundCommission | EventSubscriber/PointsRefundSubscriber.php:60-65 | the refund is commission times percent over 100, truncated toward zero (bounded within one unit of the exact quotient on the side of 0, for either sign); for a percent in 0..100 and a non-negative commission it lies between 0 and the commission |
| PointsRefund.ElapsedHours | EventSubscriber/PointsRefundSubscriber.php:45-47 | days*24 + h of the interval equals the whole hours between now and the start, ignoring the sign |
| PointsRefund.OnUserRemove | EventSubscriber/PointsRefundSubscriber.php:35-58 | a subject that is not a booking changes nothing. A company is updated iff the elapsed hours reach the threshold. Its balance then rises by exactly the refund, and nothing else changes |
| PointsRefund.PastStartAlsoRefunds | EventSubscriber/PointsRefundSubscriber.php:45-49 | a start lying at least threshold hours in the past also triggers the refund |
| PointsRefund.RefundTenPercentOfThousand | EventSubscriber/PointsRefundSubscriber.php:60-65 | a 10 percent refund of a 1000 commission is 100 |
| Chars.DigitValue | Validator/NipValidator.php:42-43 | a digit character's value is in 0..9 |
| Nip.ErrorCodeRoundTrip | Validator/Nip.php:13-19 | the two error kinds have distinct codes, and the errorNames table maps each code back to its kind's name |
| Nip.ErrorName | Validator/Nip.php:16-19 | each code maps back to its error-kind name |
| Nip.DefaultOptions | Validator/Nip.php:21-29 | by default there is no explicit pattern, the checksum is on, dashes and prefix are neither allowed nor required, and the prefix length is 2; the pattern is therefore exactly ten plain digits |
| Nip.GetPattern | Validator/NipValidator.php:55-81 | an explicit pattern is used verbatim. The prefix is required, optional or absent according to the two prefix options and a non-zero length. Dashes give the 2-3-3-2 and 3-3-2-2 groupings. Plain digits are also accepted whenever allowDashes is set, and are the only layout when neither dash option is set |
| Nip.CheckDigit | Validator/NipValidator.php:42-47 | the value of the tenth digit of the glued digit runs, or 0 when there are fewer than ten; always in 0..9 |
| Nip.ChecksumFormula | Validator/NipValidator.php:40-48 | with at least ten digits d0..d9 in the value, the checksum passes iff (6·d0 + 5·d1 + 7·d2 + 2·d3 + 3·d4 + 4·d5 + 5·d6 + 6·d7 + 7·d8) mod 11 equals d9 |
| Nip.ChecksumOfDigitString | Validator/NipValidator.php:40-48 | for a string of exactly ten digits the same formula holds over its own characters |
| Nip.RemainderTenFails | Validator/NipValidator.php:44-47 | a weighted sum with remainder 10 modulo 11 never passes the checksum |
| Nip.ChecksumIgnoresNonDigit | Validator/NipValidator.php:42-43 | inserting a non-digit character anywhere never changes the checksum verdict |
| Nip.WellFormedExample | Validator/NipValidator.php:40-48 | the digits 1234563218 pass the checksum |
| Nip.WrongCheckDigitExample | Validator/NipValidator.php:40-48 | the digits 1234563217 fail the checksum |
| Nip.ValidateAsWritten | Validator/NipValidator.php:13-32 | with the code's `[A-z]` prefix class: a value not matching the pattern gives exactly one pattern violation and no checksum check. A match gives exactly one checksum violation iff the checksum option is on and the check fails. Otherwise there is no violation |
| Nip.Validate | Validator/NipValidator.php:13-32 | the same outcomes with the intended letter-only prefix class |
| Nip.PlainShape | Validator/NipValidator.php:60-79 | without prefix and dash options, a value matches iff it is exactly ten digits, optionally followed by one line feed; stated for either prefix class |
| Nip.DashedShape | Validator/NipValidator.php:69-75 | with a dash option set and no prefix, 12-345-678-90 and 123-456-78-90 shapes match, and ten plain digits match iff allowDashes is set (with dashes required and allowDashes off they do not); stated for either prefix class |
| Nip.RequiredPrefixShape | Validator/NipValidator.php:62-67 | with a required prefix and no dash options, a value matches iff it is exactly prefixLength characters of the prefix class then ten digits, optionally followed by one line feed; stated for any class, so for the code's `[A-z]` and for letters alike |
| Nip.GeneratedMatchHasTenDigits | Validator/NipValidator.php:60-79 | any value matching a generated pattern, with either prefix class, holds exactly ten digits, so the checksum reads a full NIP |
| Nip.PrefixAdmitsUnderscore | Validator/NipValidator.php:63 | the `[A-z]` prefix class accepts `__1234563218` when a two-character prefix is required, and the letter class rejects it |
| Nip.UnderscorePrefixValidates | Validator/NipValidator.php:13-32 | with a required two-character prefix, the validator as written reports no violation for `__1234563218`, while the intended one reports the pattern error |
| Nip.UnderscoreChecksum | Validator/NipValidator.php:40-48 | `__1234563218` passes the checksum, since the underscores are not digits |
| Nip.PrefixIsLetters | Validator/NipValidator.php:62-67 | with the intended class, every accepted value starts with prefixLength letters when the prefix is required |
| Nip.PrefixLetterIsRangeMinusPunctuation | Validator/NipValidator.php:63 | a letter-only prefix class accepts exactly the `[A-z]` characters except the six punctuation marks between Z and a |
| Phone.Validate | Validator/PhoneValidator.php:16-47 | a foreign constraint is a type error before anything else; null and "" pass; another non-string is an unexpected-value error; a string gives at most one violation, none iff it is 9 digits or 11 digits starting 48 (with PCRE's optional final line feed), carrying the Polish message |
| Phone.ElevenDigitsWrongCountry | Validator/PhoneValidator.php:36-42 | eleven digits not starting with 48 give exactly one violation |
| Phone.AcceptedShapes | Validator/PhoneValidator.php:34-42 | nine digits, and eleven digits starting with 48, give no violation |
| CompanyVoter.Supports | Voters/CompanyVoter.php:29-36 | an attribute is supported iff it is company:view or company:edit |
| CompanyVoter.CanView | Voters/CompanyVoter.php:66-69 | view is granted iff some employee of the company has the employee's identity |
| CompanyVoter.CanEdit | Voters/CompanyVoter.php:76-81 | edit is granted iff view is and the employee holds ROLE_COMPANY_OWNER |
| CompanyVoter.HiringGrantsView | Voters/CompanyVoter.php:66-69 | adding an employee to the company grants them view, and adding anyone keeps every existing view |
| CompanyVoter.EditImpliesView | Voters/CompanyVoter.php:66-81 | whoever may edit a company (canEdit) may view it (canView) |
| CompanyVoter.VoteOnAttribute | Voters/CompanyVoter.php:44-81 | a non-employee is denied. A supported attribute never raises the logic error, and an unsupported one does. With a company subject and a supported attribute the vote is always a yes/no answer, never an error. View and edit votes are granted iff membership, and membership plus owner, hold |
| CompanyVoter.EditVoteImpliesViewVote | Voters/CompanyVoter.php:44-81 | a granted edit vote implies a granted view vote for the same user and subject |
| UserRepository.FindUserCompanyByStatus | Repository/UserRepository.php:29-38 | returns exactly the users having a company link with both the given company and the given status, each with its multiplicity |
| UserRepository.FavouriteClauses | Repository/UserRepository.php:65-98 | the id restriction is always present. Each of the gender, rate, distance and age clauses is present iff its activation rule holds |
| UserRepository.FavouriteClausesMeaning | Repository/UserRepository.php:65-98 | the conjunction of the built clauses holds for a user iff the declarative favourite-match predicate does |
| UserRepository.FindFavouritesWithFilters | Repository/UserRepository.php:47-101 | a user is returned iff it is among the users, its id is a favourite, and every active filter holds; every result's id is a favourite |
| UserRepository.SameMatchSameResult | Repository/UserRepository.php:65-98 | two parameter sets with the same match predicate give the same result: the same rows, in the model's table order, since the SQL has no ORDER BY |
| UserRepository.GenderIgnoredUnlessBinary | Repository/UserRepository.php:69-72 | a gender parameter other than "0" or "1" restricts nothing |
| UserRepository.RateIgnoredUnlessTruthy | Repository/UserRepository.php:74-77 | a falsy rate restricts nothing |
| UserRepository.ZeroDistFromDisablesDistance | Repository/UserRepository.php:79-86 | a dist_from of "0" switches the distance filter off |
| UserRepository.DistanceRangeInclusive | Repository/UserRepository.php:79-86 | when active, the distance filter admits both ends of the range |
| UserRepository.DistanceFromRequestedPoint | Repository/UserRepository.php:79-86 | with the distance filter active, a favourite passing the other filters is selected iff it has a stored point whose distance from the requested latitude and longitude lies within [dist_from, dist_to] |
| UserRepository.AgeIgnoredUnlessBothBounds | Repository/UserRepository.php:88-95 | the age filter needs both bounds; with either falsy, age restricts nothing |
| UserRepository.AgeWindow | Repository/UserRepository.php:88-95 | when active, the birth date must lie between 1 January of (year minus age_to) and 31 December of (year minus age_from) |
| UserRepository.FindBlacklistWithFilters | Repository/UserRepository.php:108-121 | before pagination, exactly the users whose id is listed, each with its multiplicity |

## Left out

- Persistence: `persist`, `flush` and the entity manager's removal of old tiers in `update` have no counterpart; each operation returns the new state.
- Output: the close command's log line and the process exit code are not modelled.
- Pagination: `paginate` and the `limit`/`page` parameters are not part of this model. Both queries return the full filtered sequence.
- The event repository's `findToClose` query is not part of this model. Its result is the `toClose` parameter.
- The other `EventService` operations are not modelled, because they are listing queries, photo storage I/O or serialization: `get`, `getForCompanyWithFilters`, `getEventsList`, `getForUsersWithFilters`, `uploadPhoto`, `removePhoto`.
- The `Company` and `Employee` entities are not part of this model. Only the employee id, roles, active counter and company balance are kept.
- The back-references are not modelled: `setEvent` on a tier, and the user side of `addUsers`/`removeUsers` (the `User` entity is not part of this model).
- Events.AddUsers: the source's `users` collection holds `UserEvent` bookings, while `addUsers`/`removeUsers` take a `User` and test `contains` by identity. The model treats the collection as a sequence of user identities, so it does not model that a `User` never equals a loaded booking.
- Events.RemoveFile: `array_diff` keeps the keys of the surviving names, which leaves a sparse array. The model renumbers the survivors as a sequence and keeps only their order.
- Plain getters and setters of `Event` (address, point, photos, rating setters) have no behaviour and are not modelled.
- Time zones and daylight saving are not modelled. Instants are integer seconds in UTC, so `DateTime::diff` has no calendar irregularities here.
- Nip.MatchesWith: a user-supplied pattern goes to a regular-expression matcher passed as a parameter. PCRE compile errors, for example from a huge `prefixLength`, are not modelled.
- PointsRefund.RefundCommission: the source computes `$price * ($commission/100)` in floating point and casts it to int. The model truncates the exact rational value, so float rounding near whole numbers is not modelled.
- PointsRefund.OnUserRemove: the two environment variables are the integer fields of `RefundConfig`. Unset or non-numeric values are not modelled. A booking is assumed to have an event with a start date and a company; the null cases would be fatal errors in the source.
- Phone.Validate: the violation's message parameters and translation are not modelled; only the message text is kept.
- UserRepository.FindFavouritesWithFilters: the SQL `ST_Distance_Sphere` is the `distance` parameter. It receives the raw `latitude` and `longitude` strings as the origin, so the `%f` formatting into `POINT(...)` is not modelled. Birth dates are compared as calendar dates, so the time of day in the SQL bounds is not modelled. Parameters are strings, and a truthy numeric parameter is read as its leading decimal value.
- CompanyVoter.VoteOnAttribute: the framework's aggregation of votes from several voters is not modelled.
- EventService.Cancel: the source reads the clock twice, once for the window test and once for the end date. The model uses one `now` for both.

## Findings

| source | as written | input that shows it | evidently intended | confidence | as-written member | corrected member |
|---|---|---|---|---|---|---|
| Entity/Event.php:575-588 | `getPriceFrom` treats 0 as "not set yet", so a free tier is forgotten as soon as a later tier is seen | tier prices 5, 0, 3 give a lower price of 3 | the lowest tier price, 0 | not executed | Events.PriceFromSkipsFreeTier | Events.LowestPrice |
| Validator/NipValidator.php:63 | the prefix class `[A-z]` spans ASCII 65..122, which includes `[ \ ] ^ _` and the backquote | `__1234563218` with a required two-character prefix is accepted | letters only, `[A-Za-z]` | not executed | Nip.UnderscorePrefixValidates | Nip.PrefixIsLetters |

For both rows the model keeps the code's version under its own name (`PriceFrom`, `MatchesAsWritten`, `ValidateAsWritten`) and states the discrepancy about it. The corrected definitions sit beside them: `Nip.Validate` matches with the letter-only class, and the lemmas about new and updated events also state the corrected lower price.

=== FILE: chars.dfy ===
/** Character classes and anchoring as PCRE applies them in the validators'
    regular expressions (no `u` and no `D` modifier). */
module Chars {

  /** `\d` and `[0-9]`: the ASCII digits. */
  predicate IsDigit(c: char)
  {
    '0' <= c <= '9'
  }

  predicate AllDigits(s: string)
  {
    forall k :: 0 <= k < |s| ==> IsDigit(s[k])
  }

  function DigitValue(c: char): (v: int)
    requires IsDigit(c)
    ensures 0 <= v <= 9
  {
    c as int - '0' as int
  }

  /** `/^…$/`: the body must match the whole subject, except that `$` also
      matches just before one final newline. */
  predicate Anchored(s: string, body: string -> bool)
  {
    body(s) || (|s| > 0 && s[|s| - 1] == '\n' && body(s[..|s| - 1]))
  }
}

=== FILE: company.dfy ===
/** The parts of a company and its employees that the event core touches.
    The Company and Employee entities themselves are not part of this model:
    their fields appear here only as far as the event service, the refund
    subscriber and the company voter read or change them. */
module Companies {

  type EmployeeId = nat
  type CompanyId = nat

  const ROLE_COMPANY_OWNER: string := "ROLE_COMPANY_OWNER"

  /** An employee link: identity, security roles and the active-events counter. */
  datatype Employee = Employee(id: EmployeeId, roles: seq<string>, active: int)

  /** A company: identity, its employees and its points balance. */
  datatype Company = Company(id: CompanyId, employees: seq<Employee>, balance: int)

  /** Collection::contains on the employees, by identity. */
  predicate HasEmployee(c: Company, e: Employee)
  {
    exists k :: 0 <= k < |c.employees| && c.employees[k].id == e.id
  }

  /** incrementActive(n) applied to one employee. */
  function IncrementActive(e: Employee, n: int): (r: Employee)
    ensures r.active == e.active + n
    ensures r.(active := e.active) == e
  {
    e.(active := e.active + n)
  }

  /** incrementBalance(n) applied to a company. */
  function IncrementBalance(c: Company, n: int): (r: Company)
    ensures r.balance == c.balance + n
    ensures r.(balance := c.balance) == c
  {
    c.(balance := c.balance + n)
  }
}

=== FILE: company_voter.dfy ===
/** CompanyVoter: who may view or edit a company. */
module CompanyVoter {
  import opened Wrappers
  import opened Companies

  const VIEW: string := "company:view"
  const EDIT: string := "company:edit"
  const ATTRIBUTES: seq<string> := [VIEW, EDIT]

  /** The user behind the security token: an employee or anything else. */
  datatype TokenUser = EmployeeUser(employee: Employee) | OtherUser

  /** The subject voted on: a company or anything else. */
  datatype Subject = CompanySubject(company: Company) | OtherSubject

  /** The exceptions voteOnAttribute can end in: the "should not be reached"
      LogicException, and the type error of handing a non-company to
      canView/canEdit. */
  datatype VoterError = LogicError | SubjectTypeError

  /** supports: the attribute is one of the two; the subject is not looked at. */
  function Supports(attribute: string, subject: Subject): (b: bool)
    ensures b <==> attribute == VIEW || attribute == EDIT
  {
    attribute in ATTRIBUTES
  }

  /** canView: membership of the company's employees. */
  function CanView(c: Company, e: Employee): (b: bool)
    ensures b <==> exists k :: 0 <= k < |c.employees| && c.employees[k].id == e.id
  {
    HasEmployee(c, e)
  }

  /** canEdit: membership plus the owner role. */
  function CanEdit(c: Company, e: Employee): (b: bool)
    ensures b <==> CanView(c, e) && ROLE_COMPANY_OWNER in e.roles
  {
    HasEmployee(c, e) && ROLE_COMPANY_OWNER in e.roles
  }

  /** Joining a company grants view on it, and hiring someone else takes
      nobody's view away. */
  lemma HiringGrantsView(c: Company, e: Employee, hired: Employee)
    ensures CanView(c.(employees := c.employees + [e]), e)
    ensures CanView(c, e) ==> CanView(c.(employees := c.employees + [hired]), e)
  {
    var c' := c.(employees := c.employees + [e]);
    assert c'.employees[|c.employees|] == e;
    if CanView(c, e) {
      var k :| 0 <= k < |c.employees| && c.employees[k].id == e.id;
      assert (c.employees + [hired])[k] == c.employees[k];
    }
  }

  /** Whoever may edit a company may view it. */
  lemma EditImpliesView(c: Company, e: Employee)
    ensures CanEdit(c, e) ==> CanView(c, e)
  {
  }

  /** voteOnAttribute: non-employees are denied; view needs membership; edit
      needs membership and the owner role; an unsupported attribute falls
      through to the LogicException, which a supported one never reaches. */
  function VoteOnAttribute(attribute: string, subject: Subject, token: TokenUser): (r: Result<bool, VoterError>)
    ensures token.OtherUser? ==> r == Success(false)
    ensures Supports(attribute, subject) ==> r != Failure(LogicError)
    ensures token.EmployeeUser? && !Supports(attribute, subject) ==> r == Failure(LogicError)
    ensures token.EmployeeUser? && Supports(attribute, subject) && subject.OtherSubject? ==>
              r == Failure(SubjectTypeError)
    ensures subject.CompanySubject? && Supports(attribute, subject) ==> r.Success?
    ensures token.EmployeeUser? && subject.CompanySubject? && attribute == VIEW ==>
              (r == Success(true) <==> HasEmployee(subject.company, token.employee))
    ensures token.EmployeeUser? && subject.CompanySubject? && attribute == EDIT ==>
              (r == Success(true) <==>
                 HasEmployee(subject.company, token.employee) && ROLE_COMPANY_OWNER in token.employee.roles)
  {
    match token
    case OtherUser => Success(false)
    case EmployeeUser(e) =>
      if attribute == VIEW then
        (match subject
         case CompanySubject(c) => Success(CanView(c, e))
         case OtherSubject => Failure(SubjectTypeError))
      else if attribute == EDIT then
        (match subject
         case CompanySubject(c) => Success(CanEdit(c, e))
         case OtherSubject => Failure(SubjectTypeError))
      else Failure(LogicError)
  }

  /** A vote granting edit on a company also grants view on it. */
  lemma EditVoteImpliesViewVote(subject: Subject, token: TokenUser)
    ensures VoteOnAttribute(EDIT, subject, token) == Success(true) ==>
              VoteOnAttribute(VIEW, subject, token) == Success(true)
  {
  }
}

=== FILE: datetimes.dfy ===
/** Instants as whole seconds (UTC, no leap seconds, no daylight saving) and the
    parts of PHP's DateTime::diff that the core reads. */
module DateTimes {

  /** An instant, in seconds since an arbitrary epoch. */
  type Time = int

  const SecondsPerMinute: nat := 60
  const SecondsPerHour: nat := 3600
  const SecondsPerDay: nat := 86400

  function Abs(x: int): (r: nat)
    ensures r == x || r == -x
  {
    if x < 0 then -x else x
  }

  /** The fields of a DateInterval the core uses: `days` is the total number of
      whole days (`%a`), `h`, `i`, `s` the hour, minute and second parts, and
      `invert` tells whether the interval runs backwards. All are magnitudes. */
  datatype Interval = Interval(invert: bool, days: nat, h: nat, i: nat, s: nat)

  /** `from->diff(to)`: the magnitude of `to - from` broken into whole days and
      the remaining hours, minutes and seconds. */
  function Diff(from: Time, to: Time): (d: Interval)
    ensures d.invert <==> to < from
    ensures d.h < 24 && d.i < 60 && d.s < 60
    ensures d.days * SecondsPerDay + d.h * SecondsPerHour + d.i * SecondsPerMinute + d.s == Abs(to - from)
  {
    var m := Abs(to - from);
    var rest := m % SecondsPerDay;
    Interval(to < from, m / SecondsPerDay, rest / SecondsPerHour,
             (rest % SecondsPerHour) / SecondsPerMinute, rest % SecondsPerMinute)
  }

  /** The `%a` field counts whole days of the distance, whichever way it runs. */
  lemma DiffDays(from: Time, to: Time)
    ensures Diff(from, to).days == Abs(to - from) / SecondsPerDay
    ensures Diff(from, to).days == Diff(to, from).days
  {
  }

  /** `days * 24 + h` is the number of whole hours between the two instants. */
  lemma {:induction false} DiffWholeHours(from: Time, to: Time)
    ensures Diff(from, to).days * 24 + Diff(from, to).h == Abs(to - from) / SecondsPerHour
  {
    var d := Diff(from, to);
    var m := Abs(to - from);
    var q := d.days * 24 + d.h;
    var rem := d.i * SecondsPerMinute + d.s;
    assert 0 <= rem < SecondsPerHour;
    assert m == q * SecondsPerHour + rem;
    DivUnique(m, SecondsPerHour, q, rem);
  }

  lemma DivUnique(m: nat, k: nat, q: int, rem: int)
    requires 0 < k && 0 <= rem < k && m == q * k + rem
    ensures m / k == q
  {
    var q', r' := m / k, m % k;
    assert m == q' * k + r';
    if q < q' {
      MulAtLeast(q' - q, k);
      assert false;
    } else if q' < q {
      MulAtLeast(q - q', k);
      assert false;
    }
  }

  lemma MulAtLeast(a: int, k: nat)
    requires a >= 1
    ensures a * k >= k
  {
  }
}

=== FILE: event.dfy ===
/** The Event entity: its status codes, defaults, collection operations,
    derived prices and closing. */
module Events {
  import opened Wrappers
  import opened Seqs
  import opened DateTimes
  import opened Companies

  type EventId = nat
  type UserId = nat
  type CategoryId = nat

  const STATUS_CANCELED: int := 0
  const STATUS_ACTIVE: int := 1
  const STATUS_CLOSED: int := 2

  datatype Status = Canceled | Active | Closed

  /** The small integer stored in the status column. */
  function StatusCode(s: Status): (code: int)
    ensures 0 <= code <= 2
  {
    match s
    case Canceled => STATUS_CANCELED
    case Active => STATUS_ACTIVE
    case Closed => STATUS_CLOSED
  }

  /** Reading a status column back: only the three codes name a status. */
  function StatusFromCode(code: int): (r: Option<Status>)
    ensures r.Some? <==> 0 <= code <= 2
    ensures r.Some? ==> StatusCode(r.value) == code
  {
    if code == STATUS_CANCELED then Some(Canceled)
    else if code == STATUS_ACTIVE then Some(Active)
    else if code == STATUS_CLOSED then Some(Closed)
    else None
  }

  /** Every status survives being stored and read back. */
  lemma StatusCodeRoundTrip(s: Status)
    ensures StatusFromCode(StatusCode(s)) == Some(s)
  {
  }

  /** A price tier. `ref` is the object's identity: two tiers with the same
      title and price are still different objects. Refs are handed out once
      per object, so tiers with equal refs are equal tiers, and datatype
      equality of tiers coincides with Doctrine's identity test in
      `contains`. */
  datatype EventDetail = EventDetail(ref: nat, title: string, price: int)

  /** The state of one event. Nullable columns are `Option`s; the rating
      aggregate is held as integers; `usersOverride` is the explicit value
      behind setGetUsers. Address, point and the serialisation-only fields
      are not modelled. */
  datatype Event = Event(
    id: Option<EventId>,
    description: Option<string>,
    startDate: Option<Time>,
    endDate: Option<Time>,
    status: Status,
    company: Option<CompanyId>,
    users: seq<UserId>,
    category: Option<CategoryId>,
    details: seq<EventDetail>,
    depositAmount: Option<int>,
    phone: Option<string>,
    isDeposit: Option<bool>,
    isUserLimitReached: bool,
    calendarDetail: Option<string>,
    ratingScore: int,
    ratingTotal: int,
    ratingCounter: int,
    comment: Option<string>,
    files: seq<string>,
    usersOverride: Option<int>,
    createdAt: Time)

  /** The constructor: an active event with no bookings, no tiers, a zero
      rating and the limit flag off, stamped with the current time. */
  function NewEvent(now: Time): (e: Event)
    ensures e.status == Active && StatusCode(e.status) == STATUS_ACTIVE
    ensures !e.isUserLimitReached
    ensures e.ratingScore == 0 && e.ratingTotal == 0 && e.ratingCounter == 0
    ensures e.users == [] && e.details == [] && e.files == []
    ensures e.createdAt == now
    ensures GetUsers(e) == 0 && PriceFrom(e) == 0 && PriceTo(e) == 0 && LowestPrice(e.details) == 0
  {
    Event(None, None, None, None, Active, None, [], None, [], None, None, None,
          false, None, 0, 0, 0, None, [], None, now)
  }

  // ---------------------------------------------------------------- bookings

  /** addUsers: appends the user unless already present. */
  function AddUsers(e: Event, u: UserId): (r: Event)
    ensures u in r.users
    ensures u in e.users ==> r == e
    ensures u !in e.users ==> r.users == e.users + [u]
    ensures r.(users := e.users) == e
  {
    if u in e.users then e else e.(users := e.users + [u])
  }

  /** removeUsers: drops one occurrence of the user, if present. */
  function RemoveUsers(e: Event, u: UserId): (r: Event)
    ensures u !in e.users ==> r == e
    ensures multiset(r.users) == multiset(e.users) - multiset{u}
    ensures r.(users := e.users) == e
  {
    if u !in e.users then e else e.(users := RemoveFirst(e.users, u))
  }

  lemma AddUsersIdempotent(e: Event, u: UserId)
    ensures AddUsers(AddUsers(e, u), u) == AddUsers(e, u)
  {
  }

  /** Removing a user just added gives the event back. */
  lemma AddThenRemoveUsers(e: Event, u: UserId)
    requires u !in e.users
    ensures RemoveUsers(AddUsers(e, u), u) == e
  {
    RemoveFirstAppended(e.users, u);
  }

  /** getGetUsers: the explicit override when set, otherwise the booking count. */
  function GetUsers(e: Event): (n: int)
    ensures e.usersOverride.None? ==> n == |e.users|
    ensures e.usersOverride.Some? ==> n == e.usersOverride.value
  {
    match e.usersOverride
    case None => |e.users|
    case Some(v) => v
  }

  /** Without an override, adding a user raises the count by one exactly when
      the user was not yet booked. */
  lemma AddUsersCount(e: Event, u: UserId)
    requires e.usersOverride.None?
    ensures GetUsers(AddUsers(e, u)) == GetUsers(e) + (if u in e.users then 0 else 1)
  {
  }

  // ------------------------------------------------------------- price tiers

  /** addEventDetail: appends the tier unless the same object is present. */
  function AddEventDetail(e: Event, d: EventDetail): (r: Event)
    ensures d in r.details
    ensures d in e.details ==> r == e
    ensures d !in e.details ==> r.details == e.details + [d]
    ensures r.(details := e.details) == e
  {
    if d in e.details then e else e.(details := e.details + [d])
  }

  /** removeEventDetail: drops the tier if present, else changes nothing. */
  function RemoveEventDetail(e: Event, d: EventDetail): (r: Event)
    ensures d !in e.details ==> r == e
    ensures d in e.details ==> |r.details| == |e.details| - 1
    ensures multiset(r.details) == multiset(e.details) - multiset{d}
    ensures r.(details := e.details) == e
  {
    if d in e.details then e.(details := RemoveFirst(e.details, d)) else e
  }

  /** Removing a tier just added gives the event back. */
  lemma AddThenRemoveEventDetail(e: Event, d: EventDetail)
    requires d !in e.details
    ensures RemoveEventDetail(AddEventDetail(e, d), d) == e
  {
    RemoveFirstAppended(e.details, d);
  }

  /** clearEventDetails: removes every tier. */
  function ClearEventDetails(e: Event): (r: Event)
    ensures r.details == []
    ensures r.(details := e.details) == e
  {
    e.(details := [])
  }

  // ------------------------------------------------------------------- files

  /** addFile: appends exactly one entry. */
  function AddFile(e: Event, name: string): (r: Event)
    ensures |r.files| == |e.files| + 1
    ensures r.files[..|e.files|] == e.files && r.files[|e.files|] == name
    ensures r.(files := e.files) == e
  {
    e.(files := e.files + [name])
  }

  /** removeFile (array_diff): drops every occurrence of the name and keeps
      every other entry, with its multiplicity. */
  function RemoveFile(e: Event, name: string): (r: Event)
    ensures name !in r.files
    ensures forall f :: f != name ==> multiset(r.files)[f] == multiset(e.files)[f]
    ensures r.(files := e.files) == e
  {
    FilterCounts(e.files, f => f != name);
    e.(files := Filter(e.files, f => f != name))
  }

  /** A name that is not attached leaves the files untouched. */
  lemma RemoveAbsentFile(e: Event, name: string)
    requires name !in e.files
    ensures RemoveFile(e, name) == e
  {
    FilterAll(e.files, f => f != name);
  }

  /** Removal keeps the order of what remains: removing from files `a + b`
      gives the survivors of `a` followed by the survivors of `b`. */
  lemma RemoveFileKeepsOrder(e: Event, name: string, a: seq<string>, b: seq<string>)
    requires e.files == a + b
    ensures RemoveFile(e, name).files == RemoveFile(e.(files := a), name).files + RemoveFile(e.(files := b), name).files
  {
    FilterConcat(a, b, f => f != name);
  }

  /** Adding then removing a name is the same as removing it. */
  lemma AddThenRemoveFile(e: Event, name: string)
    ensures RemoveFile(AddFile(e, name), name) == RemoveFile(e, name)
  {
    FilterConcat(e.files, [name], f => f != name);
  }

  // ---------------------------------------------------------- derived prices

  predicate AllPositive(ds: seq<EventDetail>)
  {
    forall k :: 0 <= k < |ds| ==> ds[k].price > 0
  }

  predicate AllNonNegative(ds: seq<EventDetail>)
  {
    forall k :: 0 <= k < |ds| ==> ds[k].price >= 0
  }

  predicate IsPriceOf(p: int, ds: seq<EventDetail>)
  {
    exists k :: 0 <= k < |ds| && ds[k].price == p
  }

  /** `p` is the smallest price among the tiers. */
  predicate IsLowest(p: int, ds: seq<EventDetail>)
  {
    IsPriceOf(p, ds) && forall k :: 0 <= k < |ds| ==> p <= ds[k].price
  }

  /** `p` is the largest price among the tiers. */
  predicate IsHighest(p: int, ds: seq<EventDetail>)
  {
    IsPriceOf(p, ds) && forall k :: 0 <= k < |ds| ==> ds[k].price <= p
  }

  /** One iteration of getPriceFrom's loop: 0 means "nothing seen yet". */
  function PriceFromStep(acc: int, price: int): int
  {
    if acc == 0 then price else if acc > price then price else acc
  }

  /** One iteration of getPriceTo's loop, with the same sentinel. */
  function PriceToStep(acc: int, price: int): int
  {
    if acc == 0 then price else if acc < price then price else acc
  }

  /** getPriceFrom's loop from accumulator `acc` over the remaining tiers: the
      result is the accumulator or one of the prices. */
  function PriceFromScan(acc: int, ds: seq<EventDetail>): (r: int)
    ensures r == acc || IsPriceOf(r, ds)
    decreases |ds|
  {
    if |ds| == 0 then acc
    else
      var r := PriceFromScan(PriceFromStep(acc, ds[0].price), ds[1..]);
      assert IsPriceOf(r, ds[1..]) ==> IsPriceOf(r, ds) by {
        if IsPriceOf(r, ds[1..]) {
          var k :| 0 <= k < |ds[1..]| && ds[1..][k].price == r;
          assert ds[k + 1].price == r;
        }
      }
      r
  }

  /** getPriceTo's loop from accumulator `acc` over the remaining tiers. */
  function PriceToScan(acc: int, ds: seq<EventDetail>): (r: int)
    ensures r == acc || IsPriceOf(r, ds)
    decreases |ds|
  {
    if |ds| == 0 then acc
    else
      var r := PriceToScan(PriceToStep(acc, ds[0].price), ds[1..]);
      assert IsPriceOf(r, ds[1..]) ==> IsPriceOf(r, ds) by {
        if IsPriceOf(r, ds[1..]) {
          var k :| 0 <= k < |ds[1..]| && ds[1..][k].price == r;
          assert ds[k + 1].price == r;
        }
      }
      r
  }

  /** getPriceFrom: 0 without tiers, otherwise one of the tier prices. */
  function PriceFrom(e: Event): (r: int)
    ensures |e.details| == 0 ==> r == 0
    ensures r == 0 || IsPriceOf(r, e.details)
  {
    PriceFromScan(0, e.details)
  }

  /** getPriceTo: 0 without tiers, otherwise one of the tier prices. */
  function PriceTo(e: Event): (r: int)
    ensures |e.details| == 0 ==> r == 0
    ensures r == 0 || IsPriceOf(r, e.details)
  {
    PriceToScan(0, e.details)
  }

  lemma {:induction false} PriceFromScanBelow(acc: int, ds: seq<EventDetail>)
    requires acc >= 0 && AllPositive(ds)
    ensures forall k :: 0 <= k < |ds| ==> PriceFromScan(acc, ds) <= ds[k].price
    ensures acc > 0 ==> PriceFromScan(acc, ds) <= acc
    ensures (acc > 0 || |ds| > 0) ==> PriceFromScan(acc, ds) > 0
    decreases |ds|
  {
    if |ds| > 0 {
      var next := PriceFromStep(acc, ds[0].price);
      PriceFromScanBelow(next, ds[1..]);
      forall k | 0 <= k < |ds|
        ensures PriceFromScan(acc, ds) <= ds[k].price
      {
        if k > 0 {
          assert ds[k] == ds[1..][k - 1];
        }
      }
    }
  }

  lemma {:induction false} PriceToScanAbove(acc: int, ds: seq<EventDetail>)
    requires acc >= 0 && AllNonNegative(ds)
    ensures forall k :: 0 <= k < |ds| ==> ds[k].price <= PriceToScan(acc, ds)
    ensures acc <= PriceToScan(acc, ds)
    decreases |ds|
  {
    if |ds| > 0 {
      var next := PriceToStep(acc, ds[0].price);
      PriceToScanAbove(next, ds[1..]);
      forall k | 0 <= k < |ds|
        ensures ds[k].price <= PriceToScan(acc, ds)
      {
        if k > 0 {
          assert ds[k] == ds[1..][k - 1];
        }
      }
    }
  }

  /** With every tier price positive, getPriceFrom is the lowest price. */
  lemma PriceFromIsLowest(e: Event)
    requires |e.details| > 0 && AllPositive(e.details)
    ensures IsLowest(PriceFrom(e), e.details)
  {
    PriceFromScanBelow(0, e.details);
  }

  /** With every tier price non-negative, getPriceTo is the highest price. */
  lemma PriceToIsHighest(e: Event)
    requires |e.details| > 0 && AllNonNegative(e.details)
    ensures IsHighest(PriceTo(e), e.details)
  {
    PriceToScanAbove(0, e.details);
    if PriceTo(e) == 0 {
      assert e.details[0].price == 0;
    }
  }

  /** With positive prices the derived range is ordered. */
  lemma PriceRangeOrdered(e: Event)
    requires AllPositive(e.details)
    ensures PriceFrom(e) <= PriceTo(e)
  {
    if |e.details| > 0 {
      PriceFromIsLowest(e);
      PriceToIsHighest(e);
    }
  }

  /** getPriceFrom as written: a free tier is forgotten as soon as another
      tier follows it, because 0 doubles as "nothing seen yet". */
  lemma PriceFromSkipsFreeTier(e: Event)
    requires |e.details| == 3
    requires e.details[0].price == 5 && e.details[1].price == 0 && e.details[2].price == 3
    ensures PriceFrom(e) == 3
    ensures !IsLowest(PriceFrom(e), e.details)
  {
    var ds := e.details;
    assert ds[1..][1..] == ds[2..];
    calc {
      PriceFrom(e);
      PriceFromScan(5, ds[1..]);
      PriceFromScan(0, ds[2..]);
      PriceFromScan(3, ds[3..]);
      3;
    }
  }

  /** The evidently intended lowest price: 0 without tiers, otherwise the
      minimum over all tiers, free ones included. */
  function LowestPrice(ds: seq<EventDetail>): (r: int)
    ensures |ds| == 0 ==> r == 0
    ensures |ds| > 0 ==> IsLowest(r, ds)
    decreases |ds|
  {
    if |ds| == 0 then 0
    else if |ds| == 1 then ds[0].price
    else
      var rest := LowestPrice(ds[1..]);
      assert forall k :: 1 <= k < |ds| ==> ds[k] == ds[1..][k - 1];
      var k :| 0 <= k < |ds[1..]| && ds[1..][k].price == rest;
      assert ds[k + 1].price == rest;
      if ds[0].price <= rest then ds[0].price else rest
  }

  /** Where no tier is free, the corrected definition agrees with getPriceFrom. */
  lemma LowestPriceAgrees(e: Event)
    requires AllPositive(e.details)
    ensures LowestPrice(e.details) == PriceFrom(e)
  {
    if |e.details| > 0 {
      PriceFromIsLowest(e);
    }
  }

  /** With the corrected lower price the range is ordered for every
      non-negative price list, free tiers included. */
  lemma LowestPriceRangeOrdered(e: Event)
    requires AllNonNegative(e.details)
    ensures LowestPrice(e.details) <= PriceTo(e)
  {
    if |e.details| > 0 {
      PriceToIsHighest(e);
      assert LowestPrice(e.details) <= e.details[0].price;
    }
  }

  // ----------------------------------------------------------------- closing

  /** close: the status becomes Closed and nothing else changes. */
  function Close(e: Event): (r: Event)
    ensures r.status == Closed && StatusCode(r.status) == STATUS_CLOSED
    ensures r.(status := e.status) == e
  {
    e.(status := Closed)
  }

  lemma CloseIdempotent(e: Event)
    ensures Close(Close(e)) == Close(e)
  {
  }
}

=== FILE: event_close_command.dfy ===
/** The app:event-close command: every event the to-close query returned is
    closed, one after another. The query itself is not part of this model: its
    answer is the parameter `toClose`. The store maps event ids to events. */
module EventCloseCommand {
  import opened Events

  type Store = map<EventId, Event>

  /** Every returned id names a stored event. */
  predicate AllStored(store: Store, ids: seq<EventId>)
  {
    forall k :: 0 <= k < |ids| ==> ids[k] in store
  }

  /** The intended end state: the listed events closed, all others as they were. */
  function ClosedAll(store: Store, ids: seq<EventId>): (r: Store)
    ensures r.Keys == store.Keys
  {
    map id | id in store :: if id in ids then Close(store[id]) else store[id]
  }

  /** The loop body applied in order: close the first event, then the rest. */
  function Sweep(store: Store, ids: seq<EventId>): (r: Store)
    requires AllStored(store, ids)
    ensures r.Keys == store.Keys
    decreases |ids|
  {
    if |ids| == 0 then store
    else Sweep(store[ids[0] := Close(store[ids[0]])], ids[1..])
  }

  /** The sweep closes exactly the listed events. */
  lemma {:induction false} SweepClosesListed(store: Store, ids: seq<EventId>)
    requires AllStored(store, ids)
    ensures Sweep(store, ids) == ClosedAll(store, ids)
    decreases |ids|
  {
    if |ids| > 0 {
      var s1 := store[ids[0] := Close(store[ids[0]])];
      SweepClosesListed(s1, ids[1..]);
      forall id | id in store
        ensures ClosedAll(s1, ids[1..])[id] == ClosedAll(store, ids)[id]
      {
        if id == ids[0] {
          CloseIdempotent(store[id]);
        }
      }
    }
  }

  /** execute: closes each returned event in the returned order. */
  method Execute(store: Store, toClose: seq<EventId>) returns (result: Store)
    requires AllStored(store, toClose)
    ensures result.Keys == store.Keys
    ensures forall id :: id in store && id in toClose ==> result[id] == Close(store[id])
    ensures forall id :: id in store && id !in toClose ==> result[id] == store[id]
    ensures forall k :: 0 <= k < |toClose| ==> result[toClose[k]].status == Closed
    ensures result == Sweep(store, toClose)
  {
    result := store;
    var n := 0;
    while n < |toClose|
      invariant 0 <= n <= |toClose|
      invariant result == ClosedAll(store, toClose[..n])
      decreases |toClose| - n
    {
      var id := toClose[n];
      result := result[id := Close(result[id])];
      assert toClose[..n + 1] == toClose[..n] + [id];
      forall x | x in store
        ensures result[x] == ClosedAll(store, toClose[..n + 1])[x]
      {
        if x == id {
          CloseIdempotent(store[x]);
        }
      }
      n := n + 1;
    }
    assert toClose[..n] == toClose;
    SweepClosesListed(store, toClose);
  }

  /** Processing only the first k returned events closes those and leaves
      every other event as it was. */
  lemma SweepPrefix(store: Store, ids: seq<EventId>, k: nat)
    requires AllStored(store, ids) && k <= |ids|
    ensures forall j :: 0 <= j < k ==> Sweep(store, ids[..k])[ids[j]].status == Closed
    ensures forall id :: id in store && id !in ids[..k] ==> Sweep(store, ids[..k])[id] == store[id]
  {
    SweepClosesListed(store, ids[..k]);
  }

  /** Running the sweep a second time over the same list changes nothing. */
  lemma SweepTwice(store: Store, ids: seq<EventId>)
    requires AllStored(store, ids)
    ensures AllStored(Sweep(store, ids), ids)
    ensures Sweep(Sweep(store, ids), ids) == Sweep(store, ids)
  {
    SweepClosesListed(store, ids);
    SweepClosesListed(Sweep(store, ids), ids);
    forall id | id in store && id in ids {
      CloseIdempotent(store[id]);
    }
  }

  /** An empty answer from the query changes nothing. */
  lemma SweepEmpty(store: Store)
    ensures Sweep(store, []) == store
  {
  }
}

=== FILE: event_service.dfy ===
/** EventService: creating, updating and cancelling events, as pure state
    transitions. Persistence (persist/flush, removing old tiers from the
    entity manager) is not modelled; the clock is the parameter `now`. */
module EventService {
  import opened Wrappers
  import opened DateTimes
  import opened Companies
  import opened Events

  /** The distinguishable ways an operation is rejected. */
  datatype ServiceError =
    | CategoryMissing            // create: the event has no category
    | MissingStartDate           // cancel: the event carries no start date
    | CancellationWindowExpired  // cancel: too late to cancel
    | AlreadyCanceled            // cancel: the event is already cancelled

  // ------------------------------------------------------------------ create

  /** The state a successful create leaves behind. */
  datatype Created = Created(event: Event, company: Company)

  /** The loop over the company's employees, each counter raised by `n`. */
  function IncrementAllActive(emps: seq<Employee>, n: int): (r: seq<Employee>)
    ensures |r| == |emps|
    ensures forall k :: 0 <= k < |emps| ==> r[k].active == emps[k].active + n
    ensures forall k :: 0 <= k < |emps| ==> r[k].(active := emps[k].active) == emps[k]
    decreases |emps|
  {
    if |emps| == 0 then []
    else
      var rest := IncrementAllActive(emps[1..], n);
      assert forall k :: 1 <= k < |emps| ==> emps[k] == emps[1..][k - 1];
      [IncrementActive(emps[0], n)] + rest
  }

  /** create: rejected without a category; otherwise the event is attached to
      the company and every employee's active-events counter goes up by one. */
  function Create(e: Event, c: Company): (r: Result<Created, ServiceError>)
    ensures r.Failure? <==> e.category.None?
    ensures r.Failure? ==> r.error == CategoryMissing
    ensures r.Success? ==> r.value.event.company == Some(c.id)
    ensures r.Success? ==> r.value.event.(company := e.company) == e
    ensures r.Success? ==> r.value.company.(employees := c.employees) == c
    ensures r.Success? ==> |r.value.company.employees| == |c.employees|
    ensures r.Success? ==> forall k :: 0 <= k < |c.employees| ==>
              r.value.company.employees[k].active == c.employees[k].active + 1 &&
              r.value.company.employees[k].(active := c.employees[k].active) == c.employees[k]
  {
    if e.category.None? then Failure(CategoryMissing)
    else Success(Created(e.(company := Some(c.id)), c.(employees := IncrementAllActive(c.employees, 1))))
  }

  // ------------------------------------------------------------------ update

  /** One requested tier: the `title` and `price` keys of the request. */
  datatype DetailInput = DetailInput(title: string, price: int)

  /** The fields update reads from the request. */
  datatype EventPatch = EventPatch(
    description: Option<string>,
    isUserLimitReached: bool,
    phone: Option<string>,
    isDeposit: bool,
    depositAmount: Option<int>,
    startDate: Time,
    endDate: Time,
    details: seq<DetailInput>,
    calendarDetail: Option<string>)

  /** New tier objects for the requested tiers; `firstRef` stands for the
      allocator, so the new objects are pairwise distinct. */
  function FreshDetails(inputs: seq<DetailInput>, firstRef: nat): (ds: seq<EventDetail>)
    ensures |ds| == |inputs|
    ensures forall k :: 0 <= k < |ds| ==> ds[k] == EventDetail(firstRef + k, inputs[k].title, inputs[k].price)
  {
    seq(|inputs|, k requires 0 <= k < |inputs| => EventDetail(firstRef + k, inputs[k].title, inputs[k].price))
  }

  /** The loop calling addEventDetail on each new tier in turn. */
  function AddEventDetails(e: Event, ds: seq<EventDetail>): Event
    decreases |ds|
  {
    if |ds| == 0 then e else AddEventDetails(AddEventDetail(e, ds[0]), ds[1..])
  }

  /** Adding pairwise distinct tiers none of which is present appends them all, in order. */
  lemma {:induction false} AddEventDetailsAppends(e: Event, ds: seq<EventDetail>)
    requires forall i, j :: 0 <= i < j < |ds| ==> ds[i] != ds[j]
    requires forall k :: 0 <= k < |ds| ==> ds[k] !in e.details
    ensures AddEventDetails(e, ds) == e.(details := e.details + ds)
    decreases |ds|
  {
    if |ds| > 0 {
      var e' := AddEventDetail(e, ds[0]);
      assert e'.details == e.details + [ds[0]];
      forall k | 0 <= k < |ds[1..]|
        ensures ds[1..][k] !in e'.details
      {
        assert ds[1..][k] == ds[k + 1];
      }
      AddEventDetailsAppends(e', ds[1..]);
      assert e.details + [ds[0]] + ds[1..] == e.details + ds;
    }
  }

  /** The tiers carry exactly the requested titles and prices, in order. */
  predicate TiersMatch(ds: seq<EventDetail>, inputs: seq<DetailInput>)
  {
    |ds| == |inputs| &&
    forall k :: 0 <= k < |ds| ==> ds[k].title == inputs[k].title && ds[k].price == inputs[k].price
  }

  /** update: the non-structural fields are always copied from the request;
      dates, tiers and calendar are replaced only while nobody has booked,
      and otherwise silently kept. Nothing else changes. `firstRef` stands
      for the allocator behind `new EventDetail()`, so every existing tier
      carries a smaller ref and none of them survives a replacement. */
  function Update(e: Event, p: EventPatch, firstRef: nat): (r: Event)
    requires forall d :: d in e.details ==> d.ref < firstRef
    ensures r.description == p.description && r.isUserLimitReached == p.isUserLimitReached
    ensures r.phone == p.phone && r.isDeposit == Some(p.isDeposit) && r.depositAmount == p.depositAmount
    ensures |e.users| == 0 ==> r.startDate == Some(p.startDate) && r.endDate == Some(p.endDate)
    ensures |e.users| == 0 ==> r.calendarDetail == p.calendarDetail
    ensures |e.users| == 0 ==> TiersMatch(r.details, p.details)
    ensures |e.users| == 0 ==> forall k :: 0 <= k < |r.details| ==> r.details[k].ref >= firstRef
    ensures |e.users| == 0 ==> forall d :: d in e.details ==> d !in r.details
    ensures |e.users| > 0 ==> r.startDate == e.startDate && r.endDate == e.endDate
    ensures |e.users| > 0 ==> r.details == e.details && r.calendarDetail == e.calendarDetail
    ensures r.(description := e.description, isUserLimitReached := e.isUserLimitReached,
               phone := e.phone, isDeposit := e.isDeposit, depositAmount := e.depositAmount,
               startDate := e.startDate, endDate := e.endDate, details := e.details,
               calendarDetail := e.calendarDetail) == e
  {
    var e1 := e.(description := p.description, isUserLimitReached := p.isUserLimitReached,
                 phone := p.phone, isDeposit := Some(p.isDeposit), depositAmount := p.depositAmount);
    if |e.users| == 0 then
      var e2 := ClearEventDetails(e1.(startDate := Some(p.startDate), endDate := Some(p.endDate)));
      var newTiers := FreshDetails(p.details, firstRef);
      AddEventDetailsAppends(e2, newTiers);
      assert e2.details + newTiers == newTiers;
      AddEventDetails(e2, newTiers).(calendarDetail := p.calendarDetail)
    else e1
  }

  /** Once booked, an update leaves the derived price range and the booking
      count as they were. */
  lemma UpdateBookedKeepsSchedule(e: Event, p: EventPatch, firstRef: nat)
    requires |e.users| > 0 && forall d :: d in e.details ==> d.ref < firstRef
    ensures PriceFrom(Update(e, p, firstRef)) == PriceFrom(e)
    ensures PriceTo(Update(e, p, firstRef)) == PriceTo(e)
    ensures LowestPrice(Update(e, p, firstRef).details) == LowestPrice(e.details)
    ensures GetUsers(Update(e, p, firstRef)) == GetUsers(e)
  {
  }

  // ------------------------------------------------------------------ cancel

  /** The rejection test of cancel: the start is past, or at most two whole
      days (the `%a` field of the difference) away. */
  predicate CancelWindowClosed(start: Time, now: Time)
  {
    start < now || Diff(start, now).days <= 2
  }

  /** The day-granular test amounts to: cancelling needs at least three full
      days (259200 seconds) between now and the start. */
  lemma CancelWindowExact(start: Time, now: Time)
    ensures !CancelWindowClosed(start, now) <==> start - now >= 3 * SecondsPerDay
  {
    DiffDays(start, now);
  }

  /** cancel: the window test first, then the already-cancelled test; on
      success the comment is stored verbatim, the status becomes Canceled and
      the end date becomes now. A Closed event is not rejected. */
  function Cancel(e: Event, comment: Option<string>, now: Time): (r: Result<Event, ServiceError>)
    ensures e.startDate.None? ==> r == Failure(MissingStartDate)
    ensures e.startDate.Some? && CancelWindowClosed(e.startDate.value, now) ==>
              r == Failure(CancellationWindowExpired)
    ensures e.startDate.Some? && !CancelWindowClosed(e.startDate.value, now) && e.status == Canceled ==>
              r == Failure(AlreadyCanceled)
    ensures r.Success? <==>
              e.startDate.Some? && e.startDate.value - now >= 3 * SecondsPerDay && e.status != Canceled
    ensures r.Success? ==> r.value.comment == comment && r.value.status == Canceled && r.value.endDate == Some(now)
    ensures r.Success? ==> r.value.(comment := e.comment, status := e.status, endDate := e.endDate) == e
  {
    match e.startDate
    case None => Failure(MissingStartDate)
    case Some(start) =>
      CancelWindowExact(start, now);
      if CancelWindowClosed(start, now) then Failure(CancellationWindowExpired)
      else if e.status == Canceled then Failure(AlreadyCanceled)
      else Success(e.(comment := comment, status := Canceled, endDate := Some(now)))
  }

  /** A cancelled event can never be cancelled again, whatever the clock says. */
  lemma CancelNotRepeatable(e: Event, c1: Option<string>, c2: Option<string>, now: Time, later: Time)
    requires Cancel(e, c1, now).Success?
    ensures Cancel(Cancel(e, c1, now).value, c2, later).Failure?
  {
  }
}

=== FILE: nip.dfy ===
/** The Nip constraint (Polish tax identification number) and its validator:
    a shape check built from the constraint's options, then an optional
    weighted check-digit test. A pattern given explicitly is a regular
    expression this model does not interpret: its matcher is a parameter. */
module Nip {
  import opened Wrappers
  import opened Seqs
  import opened Chars

  const INVALID_PATTERN_ERROR: string := "b2e5a844-1127-43dd-be56-861a5e37fd8e"
  const INVALID_CHECKSUM_ERROR: string := "ba94bb8a-88bc-4be8-9577-f71ec17cd7e7"

  /** The two violations the validator can raise. */
  datatype NipError = InvalidPattern | InvalidChecksum

  function ErrorCode(e: NipError): string
  {
    match e
    case InvalidPattern => INVALID_PATTERN_ERROR
    case InvalidChecksum => INVALID_CHECKSUM_ERROR
  }

  /** The errorNames table: code to name, and back through ErrorCode. */
  function ErrorName(code: string): (name: Option<string>)
    ensures name.Some? <==> code == ErrorCode(InvalidPattern) || code == ErrorCode(InvalidChecksum)
    ensures code == ErrorCode(InvalidPattern) ==> name == Some("INVALID_PATTERN_ERROR")
    ensures code == ErrorCode(InvalidChecksum) ==> name == Some("INVALID_CHECKSUM_ERROR")
  {
    if code == INVALID_PATTERN_ERROR then Some("INVALID_PATTERN_ERROR")
    else if code == INVALID_CHECKSUM_ERROR then Some("INVALID_CHECKSUM_ERROR")
    else None
  }

  /** Each error kind has its own code, and the errorNames table names it. */
  lemma ErrorCodeRoundTrip(e: NipError)
    ensures ErrorName(ErrorCode(e)) == Some(if e.InvalidPattern? then "INVALID_PATTERN_ERROR" else "INVALID_CHECKSUM_ERROR")
    ensures forall e' :: ErrorCode(e') == ErrorCode(e) ==> e' == e
  {
  }

  /** The constraint's options (its public properties). */
  datatype NipOptions = NipOptions(
    pattern: Option<string>,
    checksum: bool,
    allowDashes: bool,
    requireDashes: bool,
    allowPrefix: bool,
    requirePrefix: bool,
    prefixLength: int)

  // ----------------------------------------------------------------- pattern

  /** The country-prefix part of a generated pattern. */
  datatype PrefixRule = NoPrefix | OptionalPrefix(len: nat) | RequiredPrefix(len: nat)

  /** The digit layouts a generated pattern may offer. */
  datatype Grouping = Plain10 | Dashed2332 | Dashed3322

  /** getPattern's result: the explicit pattern, or the generated one in
      structured form. */
  datatype Pattern = Custom(regex: string) | Generated(prefix: PrefixRule, groupings: set<Grouping>)

  /** `[A-z]` as written: the ASCII range from 'A' to 'z', which also holds
      the six characters `[ \ ] ^ _` and the backquote. */
  predicate IsPrefixChar(c: char)
  {
    'A' <= c <= 'z'
  }

  /** The evidently intended prefix class: ASCII letters only. */
  predicate IsPrefixLetter(c: char)
  {
    ('A' <= c <= 'Z') || ('a' <= c <= 'z')
  }

  /** Digit groups of the given sizes separated by single dashes. */
  predicate Grouped(t: string, sizes: seq<nat>)
    decreases |sizes|
  {
    if |sizes| == 0 then false
    else if |sizes| == 1 then |t| == sizes[0] && AllDigits(t)
    else
      |t| > sizes[0] && AllDigits(t[..sizes[0]]) && t[sizes[0]] == '-'
      && Grouped(t[sizes[0] + 1..], sizes[1..])
  }

  function GroupSizes(g: Grouping): seq<nat>
  {
    match g
    case Plain10 => [10]
    case Dashed2332 => [2, 3, 3, 2]
    case Dashed3322 => [3, 3, 2, 2]
  }

  /** The digits alternation: some offered layout matches all of `t`. */
  predicate DigitsPart(gs: set<Grouping>, t: string)
  {
    exists g :: g in gs && Grouped(t, GroupSizes(g))
  }

  /** A prefix of exactly `n` characters of the class `cls`, then the digits. */
  predicate PrefixThenDigits(cls: char -> bool, n: nat, gs: set<Grouping>, t: string)
  {
    |t| >= n && (forall k :: 0 <= k < n ==> cls(t[k])) && DigitsPart(gs, t[n..])
  }

  /** What a generated pattern demands between `^` and `$`. */
  predicate GeneratedBody(cls: char -> bool, pr: PrefixRule, gs: set<Grouping>, t: string)
  {
    match pr
    case NoPrefix => DigitsPart(gs, t)
    case OptionalPrefix(n) => DigitsPart(gs, t) || PrefixThenDigits(cls, n, gs, t)
    case RequiredPrefix(n) => PrefixThenDigits(cls, n, gs, t)
  }

  /** getPattern: the explicit pattern verbatim; otherwise a prefix part
      (present only with a positive length and one of the prefix options,
      optional unless required) followed by the digit layouts (the two dashed
      ones when dashes are allowed or required, plain ten digits when dashes
      are allowed or not asked for at all). */
  function GetPattern(o: NipOptions): (p: Pattern)
    ensures o.pattern.Some? ==> p == Custom(o.pattern.value)
    ensures o.pattern.None? ==> p.Generated?
    ensures p.Generated? ==>
              (p.prefix.NoPrefix? <==> o.prefixLength <= 0 || (!o.requirePrefix && !o.allowPrefix))
    ensures p.Generated? && !p.prefix.NoPrefix? ==>
              p.prefix.len == o.prefixLength && (p.prefix.RequiredPrefix? <==> o.requirePrefix)
    ensures p.Generated? ==> (Plain10 in p.groupings <==> o.allowDashes || !o.requireDashes)
    ensures p.Generated? ==> (Dashed2332 in p.groupings <==> o.allowDashes || o.requireDashes)
    ensures p.Generated? ==> (Dashed3322 in p.groupings <==> o.allowDashes || o.requireDashes)
  {
    if o.pattern.Some? then Custom(o.pattern.value)
    else
      var prefix :=
        if o.prefixLength > 0 && (o.requirePrefix || o.allowPrefix) then
          (if o.requirePrefix then RequiredPrefix(o.prefixLength) else OptionalPrefix(o.prefixLength))
        else NoPrefix;
      var groupings :=
        if o.requireDashes || o.allowDashes then
          {Dashed2332, Dashed3322} + (if o.allowDashes then {Plain10} else {})
        else {Plain10};
      Generated(prefix, groupings)
  }

  /** preg_match of the pattern against the value, with prefix characters
      drawn from `cls`; `regexMatch` interprets an explicit pattern. */
  predicate MatchesWith(cls: char -> bool, p: Pattern, value: string, regexMatch: (string, string) -> bool)
  {
    match p
    case Custom(rx) => regexMatch(rx, value)
    case Generated(pr, gs) => Anchored(value, t => GeneratedBody(cls, pr, gs, t))
  }

  /** The generated pattern as written, with the `[A-z]` prefix class. */
  predicate MatchesAsWritten(p: Pattern, value: string, regexMatch: (string, string) -> bool)
  {
    MatchesWith(IsPrefixChar, p, value, regexMatch)
  }

  /** The generated pattern with the intended letter-only prefix class; the
      validator below uses this one. */
  predicate Matches(p: Pattern, value: string, regexMatch: (string, string) -> bool)
  {
    MatchesWith(IsPrefixLetter, p, value, regexMatch)
  }

  // ---------------------------------------------------------------- checksum

  const Weights: seq<int> := [6, 5, 7, 2, 3, 4, 5, 6, 7]

  /** All digits of the value, in order (the `\d+` runs glued together). */
  function Digits(value: string): (ds: string)
    ensures AllDigits(ds)
  {
    Filter(value, IsDigit)
  }

  /** The weighted sum of the first `n` digits. */
  function WeightedSum(ds: string, n: nat): (sum: int)
    requires AllDigits(ds) && n <= |ds| && n <= |Weights|
    ensures sum >= 0
  {
    if n == 0 then 0 else WeightedSum(ds, n - 1) + Weights[n - 1] * DigitValue(ds[n - 1])
  }

  /** The sum over the first nine digits; missing digits weigh nothing. */
  function ChecksumSum(value: string): int
  {
    var ds := Digits(value);
    WeightedSum(ds, if |ds| < 9 then |ds| else 9)
  }

  /** The tenth digit; a missing one compares like 0. */
  function CheckDigit(value: string): (d: int)
    ensures 0 <= d <= 9
    ensures |Digits(value)| < 10 ==> d == 0
    ensures |Digits(value)| >= 10 ==> d == DigitValue(Digits(value)[9])
  {
    var ds := Digits(value);
    if |ds| >= 10 then DigitValue(ds[9]) else 0
  }

  /** validateChecksum: the weighted sum modulo 11 must equal the tenth digit,
      so a remainder of 10 never passes. */
  predicate ValidateChecksum(value: string)
  {
    ChecksumSum(value) % 11 == CheckDigit(value)
  }

  /** The checksum in full: with at least ten digits d0, d1, ... in the
      value, it passes iff 6·d0 + 5·d1 + 7·d2 + 2·d3 + 3·d4 + 4·d5 + 5·d6 +
      6·d7 + 7·d8 leaves the remainder d9 modulo 11. */
  lemma ChecksumFormula(value: string)
    requires |Digits(value)| >= 10
    ensures var ds := Digits(value);
            ValidateChecksum(value) <==>
              (6 * DigitValue(ds[0]) + 5 * DigitValue(ds[1]) + 7 * DigitValue(ds[2])
               + 2 * DigitValue(ds[3]) + 3 * DigitValue(ds[4]) + 4 * DigitValue(ds[5])
               + 5 * DigitValue(ds[6]) + 6 * DigitValue(ds[7]) + 7 * DigitValue(ds[8])) % 11
              == DigitValue(ds[9])
  {
    WeightedSumNine(Digits(value));
  }

  lemma WeightedSumNine(ds: string)
    requires AllDigits(ds) && |ds| >= 9
    ensures WeightedSum(ds, 9) ==
              6 * DigitValue(ds[0]) + 5 * DigitValue(ds[1]) + 7 * DigitValue(ds[2])
              + 2 * DigitValue(ds[3]) + 3 * DigitValue(ds[4]) + 4 * DigitValue(ds[5])
              + 5 * DigitValue(ds[6]) + 6 * DigitValue(ds[7]) + 7 * DigitValue(ds[8])
  {
    assert WeightedSum(ds, 1) == 6 * DigitValue(ds[0]);
    assert WeightedSum(ds, 3) == WeightedSum(ds, 1) + 5 * DigitValue(ds[1]) + 7 * DigitValue(ds[2]);
    assert WeightedSum(ds, 5) == WeightedSum(ds, 3) + 2 * DigitValue(ds[3]) + 3 * DigitValue(ds[4]);
    assert WeightedSum(ds, 7) == WeightedSum(ds, 5) + 4 * DigitValue(ds[5]) + 5 * DigitValue(ds[6]);
    assert WeightedSum(ds, 9) == WeightedSum(ds, 7) + 6 * DigitValue(ds[7]) + 7 * DigitValue(ds[8]);
  }

  /** A bare ten-digit string is its own digit sequence, so the formula
      reads its characters directly. */
  lemma ChecksumOfDigitString(s: string)
    requires TenDigits(s)
    ensures ValidateChecksum(s) <==>
              (6 * DigitValue(s[0]) + 5 * DigitValue(s[1]) + 7 * DigitValue(s[2])
               + 2 * DigitValue(s[3]) + 3 * DigitValue(s[4]) + 4 * DigitValue(s[5])
               + 5 * DigitValue(s[6]) + 6 * DigitValue(s[7]) + 7 * DigitValue(s[8])) % 11
              == DigitValue(s[9])
  {
    DigitsOfAllDigits(s);
    assert ChecksumSum(s) == WeightedSum(s, 9);
    WeightedSumNine(s);
  }

  lemma RemainderTenFails(value: string)
    requires ChecksumSum(value) % 11 == 10
    ensures !ValidateChecksum(value)
  {
  }

  /** A non-digit character anywhere (a dash, a prefix letter) does not affect
      the checksum. */
  lemma ChecksumIgnoresNonDigit(a: string, c: char, b: string)
    requires !IsDigit(c)
    ensures ValidateChecksum(a + [c] + b) <==> ValidateChecksum(a + b)
  {
    DigitsSkipNonDigit(a, c, b);
  }

  lemma DigitsSkipNonDigit(a: string, c: char, b: string)
    requires !IsDigit(c)
    ensures Digits(a + [c] + b) == Digits(a + b)
  {
    assert Filter([c], IsDigit) == [];
    FilterConcat(a + [c], b, IsDigit);
    FilterConcat(a, [c], IsDigit);
    FilterConcat(a, b, IsDigit);
  }

  /** The digits 1234563218 form a well-formed number: the weighted sum of
      the first nine is 118, and 118 mod 11 is 8. */
  lemma WellFormedExample(s: string)
    requires |s| == 10 && s[..9] == "123456321" && s[9] == '8'
    ensures ValidateChecksum(s)
  {
    ExampleDigits(s);
    assert CheckDigit(s) == DigitValue(s[9]) == 8;
  }

  /** Changing the last digit to 7 breaks the checksum. */
  lemma WrongCheckDigitExample(s: string)
    requires |s| == 10 && s[..9] == "123456321" && s[9] == '7'
    ensures !ValidateChecksum(s)
  {
    ExampleDigits(s);
    assert CheckDigit(s) == DigitValue(s[9]) == 7;
  }

  lemma ExampleDigits(s: string)
    requires |s| == 10 && s[..9] == "123456321" && IsDigit(s[9])
    ensures Digits(s) == s && ChecksumSum(s) == 118
  {
    assert forall k :: 0 <= k < 9 ==> s[k] == "123456321"[k];
    assert AllDigits(s);
    DigitsOfAllDigits(s);
    WeightedPrefixExample(s);
  }

  lemma WeightedPrefixExample(s: string)
    requires |s| == 10 && AllDigits(s) && s[..9] == "123456321"
    ensures WeightedSum(s, 9) == 118
  {
    assert forall k :: 0 <= k < 9 ==> s[k] == "123456321"[k];
    assert WeightedSum(s, 1) == 6;
    assert WeightedSum(s, 2) == 16;
    assert WeightedSum(s, 3) == 37;
    assert WeightedSum(s, 4) == 45;
    assert WeightedSum(s, 5) == 60;
    assert WeightedSum(s, 6) == 84;
    assert WeightedSum(s, 7) == 99;
    assert WeightedSum(s, 8) == 111;
  }

  // -------------------------------------------------------------- validation

  /** validate's steps, for prefix characters drawn from `cls`: the pattern
      test, then the checksum test when the option is on. */
  function ValidateWith(cls: char -> bool, value: string, o: NipOptions,
                        regexMatch: (string, string) -> bool): seq<NipError>
  {
    if !MatchesWith(cls, GetPattern(o), value, regexMatch) then [InvalidPattern]
    else if o.checksum && !ValidateChecksum(value) then [InvalidChecksum]
    else []
  }

  /** validate as written, with the `[A-z]` prefix class: no violation, or
      exactly one. A value off the pattern gets the pattern error and the
      checksum is not consulted; otherwise, when the checksum option is on,
      a failing checksum gets the checksum error. */
  function ValidateAsWritten(value: string, o: NipOptions, regexMatch: (string, string) -> bool): (r: seq<NipError>)
    ensures |r| <= 1
    ensures r == [InvalidPattern] <==> !MatchesAsWritten(GetPattern(o), value, regexMatch)
    ensures r == [InvalidChecksum] <==>
              MatchesAsWritten(GetPattern(o), value, regexMatch) && o.checksum && !ValidateChecksum(value)
    ensures r == [] <==>
              MatchesAsWritten(GetPattern(o), value, regexMatch) && (!o.checksum || ValidateChecksum(value))
  {
    ValidateWith(IsPrefixChar, value, o, regexMatch)
  }

  /** validate with the intended letter-only prefix class; the same steps and
      the same outcomes otherwise. */
  function Validate(value: string, o: NipOptions, regexMatch: (string, string) -> bool): (r: seq<NipError>)
    ensures |r| <= 1
    ensures r == [InvalidPattern] <==> !Matches(GetPattern(o), value, regexMatch)
    ensures r == [InvalidChecksum] <==>
              Matches(GetPattern(o), value, regexMatch) && o.checksum && !ValidateChecksum(value)
    ensures r == [] <==>
              Matches(GetPattern(o), value, regexMatch) && (!o.checksum || ValidateChecksum(value))
  {
    ValidateWith(IsPrefixLetter, value, o, regexMatch)
  }

  // ----------------------------------------------------------------- options

  /** The constraint's defaults: no explicit pattern, checksum on, no dashes,
      no prefix, prefix length 2. */
  function DefaultOptions(): (o: NipOptions)
    ensures o.pattern.None? && o.checksum
    ensures !o.allowDashes && !o.requireDashes && !o.allowPrefix && !o.requirePrefix
    ensures o.prefixLength == 2
    ensures GetPattern(o) == Generated(NoPrefix, {Plain10})
  {
    NipOptions(None, true, false, false, false, false, 2)
  }

  predicate TenDigits(t: string)
  {
    |t| == 10 && AllDigits(t)
  }

  /** Without prefix or dash options the accepted shape is exactly ten
      digits, anchored at both ends, whichever prefix class is used. */
  lemma PlainShape(cls: char -> bool, o: NipOptions, value: string, regexMatch: (string, string) -> bool)
    requires o.pattern.None?
    requires !o.allowDashes && !o.requireDashes && !o.allowPrefix && !o.requirePrefix
    ensures MatchesWith(cls, GetPattern(o), value, regexMatch) <==> Anchored(value, TenDigits)
  {
    var gs := {Plain10};
    forall t
      ensures GeneratedBody(cls, NoPrefix, gs, t) <==> TenDigits(t)
    {
      if TenDigits(t) {
        assert Grouped(t, GroupSizes(Plain10));
      }
    }
  }

  predicate Dashed(t: string)
  {
    Grouped(t, [2, 3, 3, 2]) || Grouped(t, [3, 3, 2, 2])
  }

  /** With dashes and no prefix: the 2-3-3-2 and 3-3-2-2 layouts, plus the
      plain ten digits exactly when `allowDashes` is set, whether or not
      dashes are also required. No prefix is read, so this holds for either
      prefix class. */
  lemma DashedShape(cls: char -> bool, o: NipOptions, value: string, regexMatch: (string, string) -> bool)
    requires o.pattern.None? && (o.allowDashes || o.requireDashes)
    requires !o.allowPrefix && !o.requirePrefix
    ensures MatchesWith(cls, GetPattern(o), value, regexMatch) <==>
              Anchored(value, t => Dashed(t) || (o.allowDashes && TenDigits(t)))
  {
    var gs := GetPattern(o).groupings;
    forall t
      ensures GeneratedBody(cls, NoPrefix, gs, t) <==> Dashed(t) || (o.allowDashes && TenDigits(t))
    {
      if Grouped(t, [2, 3, 3, 2]) {
        assert Grouped(t, GroupSizes(Dashed2332));
      }
      if Grouped(t, [3, 3, 2, 2]) {
        assert Grouped(t, GroupSizes(Dashed3322));
      }
      if o.allowDashes && TenDigits(t) {
        assert Grouped(t, GroupSizes(Plain10));
      }
    }
  }

  /** With a required prefix (and no dash options): exactly `prefixLength`
      characters of the prefix class, then ten digits. With `IsPrefixChar`
      this is the `[A-z]` pattern as written; with `IsPrefixLetter` the
      intended one. */
  lemma RequiredPrefixShape(cls: char -> bool, o: NipOptions, value: string, regexMatch: (string, string) -> bool)
    requires o.pattern.None? && o.requirePrefix && o.prefixLength > 0
    requires !o.allowDashes && !o.requireDashes
    ensures MatchesWith(cls, GetPattern(o), value, regexMatch) <==>
              Anchored(value, t => |t| >= o.prefixLength
                                   && (forall k :: 0 <= k < o.prefixLength ==> cls(t[k]))
                                   && TenDigits(t[o.prefixLength..]))
  {
    var n: nat := o.prefixLength;
    forall t: string
      ensures GeneratedBody(cls, RequiredPrefix(n), {Plain10}, t) <==>
                (|t| >= n && (forall k :: 0 <= k < n ==> cls(t[k])) && TenDigits(t[n..]))
    {
      if |t| >= n && TenDigits(t[n..]) {
        assert Grouped(t[n..], GroupSizes(Plain10));
      }
    }
  }

  // ------------------------------------------------ digits of accepted values

  /** A layout holds exactly as many digits as its group sizes add up to. */
  function SumSizes(sizes: seq<nat>): nat
  {
    if |sizes| == 0 then 0 else sizes[0] + SumSizes(sizes[1..])
  }

  lemma {:induction false} DigitsOfAllDigits(t: string)
    requires AllDigits(t)
    ensures Digits(t) == t
  {
    FilterAll(t, IsDigit);
  }

  lemma {:induction false} GroupedDigitCount(t: string, sizes: seq<nat>)
    requires Grouped(t, sizes)
    ensures |Digits(t)| == SumSizes(sizes)
    decreases |sizes|
  {
    if |sizes| == 1 {
      DigitsOfAllDigits(t);
    } else {
      var n := sizes[0];
      assert t == t[..n] + [t[n]] + t[n + 1..];
      FilterConcat(t[..n] + [t[n]], t[n + 1..], IsDigit);
      FilterConcat(t[..n], [t[n]], IsDigit);
      DigitsOfAllDigits(t[..n]);
      GroupedDigitCount(t[n + 1..], sizes[1..]);
    }
  }

  /** Neither prefix class holds a digit. */
  predicate NoDigitIn(cls: char -> bool)
  {
    forall c :: cls(c) ==> !IsDigit(c)
  }

  lemma PrefixHasNoDigits(cls: char -> bool, t: string, n: nat)
    requires NoDigitIn(cls)
    requires n <= |t| && forall k :: 0 <= k < n ==> cls(t[k])
    ensures Digits(t[..n]) == []
  {
    assert forall k :: 0 <= k < n ==> t[..n][k] == t[k];
    FilterNone(t[..n], IsDigit);
  }

  lemma BodyDigitCount(cls: char -> bool, pr: PrefixRule, gs: set<Grouping>, t: string)
    requires NoDigitIn(cls) && GeneratedBody(cls, pr, gs, t)
    ensures |Digits(t)| == 10
  {
    if DigitsPart(gs, t) {
      DigitsPartCount(gs, t);
    } else {
      PrefixThenDigitsCount(cls, pr.len, gs, t);
    }
  }

  lemma DigitsPartCount(gs: set<Grouping>, t: string)
    requires DigitsPart(gs, t)
    ensures |Digits(t)| == 10
  {
    var g :| g in gs && Grouped(t, GroupSizes(g));
    GroupedDigitCount(t, GroupSizes(g));
    GroupSizesSumTen(g);
  }

  /** Every layout holds ten digits. */
  lemma GroupSizesSumTen(g: Grouping)
    ensures SumSizes(GroupSizes(g)) == 10
  {
    var sizes := GroupSizes(g);
    if !g.Plain10? {
      assert SumSizes(sizes[3..]) == 2;
      assert SumSizes(sizes[2..]) == sizes[2] + 2;
      assert SumSizes(sizes[1..]) == sizes[1] + sizes[2] + 2;
    }
  }

  lemma PrefixThenDigitsCount(cls: char -> bool, n: nat, gs: set<Grouping>, t: string)
    requires NoDigitIn(cls) && PrefixThenDigits(cls, n, gs, t)
    ensures |Digits(t)| == 10
  {
    PrefixHasNoDigits(cls, t, n);
    DigitsPartCount(gs, t[n..]);
    assert t == t[..n] + t[n..];
    FilterConcat(t[..n], t[n..], IsDigit);
  }

  /** Every value a generated pattern accepts carries exactly ten digits, so
      the checksum always reads nine weighted digits and a real check digit.
      This holds for the written prefix class and the intended one alike. */
  lemma GeneratedMatchHasTenDigits(cls: char -> bool, pr: PrefixRule, gs: set<Grouping>, value: string,
                                   regexMatch: (string, string) -> bool)
    requires NoDigitIn(cls)
    requires MatchesWith(cls, Generated(pr, gs), value, regexMatch)
    ensures |Digits(value)| == 10
  {
    if GeneratedBody(cls, pr, gs, value) {
      BodyDigitCount(cls, pr, gs, value);
    } else {
      assert |value| > 0 && value[|value| - 1] == '\n' && GeneratedBody(cls, pr, gs, value[..|value| - 1]);
      BodyDigitCount(cls, pr, gs, value[..|value| - 1]);
      DigitsDropLineFeed(value);
    }
  }

  /** The final line feed `$` lets through carries no digit. */
  lemma DigitsDropLineFeed(value: string)
    requires |value| > 0 && value[|value| - 1] == '\n'
    ensures Digits(value) == Digits(value[..|value| - 1])
  {
    var t := value[..|value| - 1];
    assert value == t + ['\n'];
    FilterConcat(t, ['\n'], IsDigit);
  }

  // ---------------------------------------------------------------- finding

  /** As written, `[A-z]` lets an underscore through as a prefix character:
      `__1234563218` matches; the intended letter class turns it away. */
  lemma PrefixAdmitsUnderscore(o: NipOptions, regexMatch: (string, string) -> bool, value: string)
    requires o.pattern.None? && o.requirePrefix && o.prefixLength == 2
    requires !o.allowDashes && !o.requireDashes
    requires |value| == 12 && value[0] == '_' && value[1] == '_' && value[2..] == "1234563218"
    ensures MatchesAsWritten(GetPattern(o), value, regexMatch)
    ensures !Matches(GetPattern(o), value, regexMatch)
  {
    assert Grouped(value[2..], GroupSizes(Plain10));
    assert GeneratedBody(IsPrefixChar, RequiredPrefix(2), {Plain10}, value);
    assert !IsPrefixLetter(value[0]);
  }

  /** The same value at the validator: as written it passes both tests, since
      its digits carry a valid check digit; the intended class rejects it. */
  lemma UnderscorePrefixValidates(o: NipOptions, regexMatch: (string, string) -> bool, value: string)
    requires o.pattern.None? && o.requirePrefix && o.prefixLength == 2
    requires !o.allowDashes && !o.requireDashes
    requires |value| == 12 && value[0] == '_' && value[1] == '_' && value[2..] == "1234563218"
    ensures ValidateAsWritten(value, o, regexMatch) == []
    ensures Validate(value, o, regexMatch) == [InvalidPattern]
  {
    PrefixAdmitsUnderscore(o, regexMatch, value);
    UnderscoreChecksum(value);
  }

  /** Two non-digits in front of a well-formed number leave it well formed. */
  lemma UnderscoreChecksum(value: string)
    requires |value| == 12 && value[0] == '_' && value[1] == '_' && value[2..] == "1234563218"
    ensures ValidateChecksum(value)
  {
    ExampleSplit(value[2..]);
    WellFormedExample(value[2..]);
    NonDigitsThenWellFormed(value);
  }

  lemma ExampleSplit(v: string)
    requires v == "1234563218"
    ensures |v| == 10 && v[..9] == "123456321" && v[9] == '8'
  {
  }

  lemma NonDigitsThenWellFormed(value: string)
    requires |value| >= 2 && !IsDigit(value[0]) && !IsDigit(value[1])
    requires ValidateChecksum(value[2..])
    ensures ValidateChecksum(value)
  {
    var v := value[2..];
    assert value == [value[0], value[1]] + v;
    DigitsSkipTwo(value[0], value[1], v);
    SameDigitsSameChecksum(value, v);
  }

  lemma DigitsSkipTwo(c0: char, c1: char, v: string)
    requires !IsDigit(c0) && !IsDigit(c1)
    ensures Digits([c0, c1] + v) == Digits(v)
  {
    var w := [c1] + v;
    assert w[1..] == v;
    assert Digits(w) == Digits(v);
    var t := [c0] + w;
    assert t[1..] == w;
    assert Digits(t) == Digits(w);
    assert t == [c0, c1] + v;
  }

  /** The checksum reads the digits and nothing else. */
  lemma SameDigitsSameChecksum(x: string, y: string)
    requires Digits(x) == Digits(y)
    ensures ValidateChecksum(x) <==> ValidateChecksum(y)
  {
  }

  /** With the intended class, a required prefix consists of letters only. */
  lemma PrefixIsLetters(o: NipOptions, value: string, regexMatch: (string, string) -> bool)
    requires o.pattern.None? && o.requirePrefix && o.prefixLength > 0
    requires Matches(GetPattern(o), value, regexMatch)
    ensures |value| >= o.prefixLength
    ensures forall k :: 0 <= k < o.prefixLength ==> IsPrefixLetter(value[k])
  {
    var p := GetPattern(o);
    if !GeneratedBody(IsPrefixLetter, p.prefix, p.groupings, value) {
      var t := value[..|value| - 1];
      assert forall k :: 0 <= k < |t| ==> t[k] == value[k];
    }
  }

  /** The intended class is `[A-z]` without the six punctuation characters
      between 'Z' and 'a'. */
  lemma PrefixLetterIsRangeMinusPunctuation(c: char)
    ensures IsPrefixLetter(c) <==> IsPrefixChar(c) && !('Z' < c < 'a')
    ensures IsPrefixLetter(c) ==> !IsDigit(c) && c != '-'
  {
  }
}

=== FILE: phone.dfy ===
/** The Phone constraint's validator: a Polish phone number is nine digits,
    or eleven digits starting with the country code 48. */
module Phone {
  import opened Wrappers
  import opened Chars

  const PHONE_MESSAGE: string := "Wprowadź prawidłowy numer telefonu. Przykład: 48600100100 lub 600100100"

  /** The constraint handed to the validator: a Phone constraint or another one. */
  datatype Constraint = PhoneConstraint | OtherConstraint

  /** The validated value, as far as its PHP type matters. */
  datatype Value = NullValue | StringValue(s: string) | OtherValue

  /** The exceptions the validator throws instead of reporting a violation. */
  datatype PhoneError = UnexpectedType | UnexpectedValue

  datatype Violation = Violation(message: string)

  /** `^\d{9}$` */
  predicate NineDigits(t: string)
  {
    |t| == 9 && AllDigits(t)
  }

  /** `^\d{11}$` */
  predicate ElevenDigits(t: string)
  {
    |t| == 11 && AllDigits(t)
  }

  /** `^(48)[0-9]{9}$` */
  predicate CountryCoded(t: string)
  {
    |t| == 11 && t[0] == '4' && t[1] == '8' && AllDigits(t[2..])
  }

  /** The strings the validator accepts without a violation. */
  predicate Acceptable(s: string)
  {
    Anchored(s, NineDigits) || Anchored(s, CountryCoded)
  }

  lemma CountryCodedIsEleven(t: string)
    requires CountryCoded(t)
    ensures ElevenDigits(t)
  {
    assert forall k :: 2 <= k < 11 ==> t[k] == t[2..][k - 2];
  }

  /** validate: the constraint type is checked first, then null and the empty
      string pass, any other non-string is rejected, and a string gets no
      violation when acceptable and exactly one otherwise. */
  function Validate(v: Value, c: Constraint): (r: Result<seq<Violation>, PhoneError>)
    ensures c.OtherConstraint? ==> r == Failure(UnexpectedType)
    ensures c.PhoneConstraint? && (v.NullValue? || v == StringValue("")) ==> r == Success([])
    ensures c.PhoneConstraint? && v.OtherValue? ==> r == Failure(UnexpectedValue)
    ensures c.PhoneConstraint? && v.StringValue? ==> r.Success? && |r.value| <= 1
    ensures c.PhoneConstraint? && v.StringValue? && v.s != "" ==> (r.value == [] <==> Acceptable(v.s))
    ensures r.Success? && |r.value| == 1 ==> r.value[0].message == PHONE_MESSAGE
  {
    match c
    case OtherConstraint => Failure(UnexpectedType)
    case PhoneConstraint =>
      match v
      case NullValue => Success([])
      case OtherValue => Failure(UnexpectedValue)
      case StringValue(s) =>
        if s == "" then Success([])
        else if Anchored(s, NineDigits) then Success([])
        else if Anchored(s, ElevenDigits) then
          (if Anchored(s, CountryCoded) then Success([]) else Success([Violation(PHONE_MESSAGE)]))
        else
          AnchoredCountryCodedIsEleven(s);
          Success([Violation(PHONE_MESSAGE)])
  }

  lemma AnchoredCountryCodedIsEleven(s: string)
    ensures Anchored(s, CountryCoded) ==> Anchored(s, ElevenDigits)
  {
    if CountryCoded(s) {
      CountryCodedIsEleven(s);
    } else if |s| > 0 && CountryCoded(s[..|s| - 1]) {
      CountryCodedIsEleven(s[..|s| - 1]);
    }
  }

  /** Eleven digits that do not start with 48 get exactly one violation. */
  lemma ElevenDigitsWrongCountry(s: string)
    requires ElevenDigits(s) && !(s[0] == '4' && s[1] == '8')
    ensures Validate(StringValue(s), PhoneConstraint) == Success([Violation(PHONE_MESSAGE)])
  {
  }

  /** Nine digits pass, and so do eleven starting with 48. */
  lemma AcceptedShapes(s: string)
    requires NineDigits(s) || (ElevenDigits(s) && s[0] == '4' && s[1] == '8')
    ensures Validate(StringValue(s), PhoneConstraint) == Success([])
  {
    if !NineDigits(s) {
      assert forall k :: 0 <= k < |s[2..]| ==> s[2..][k] == s[k + 2];
      assert CountryCoded(s);
    }
  }
}

=== FILE: points_refund.dfy ===
/** PointsRefundSubscriber: when a booking goes through the `user_remove`
    transition of the `user_event_state` workflow, the owning company gets part
    of the booking's commission back, provided the event start is far enough
    from now. The two environment settings are the fields of RefundConfig. */
module PointsRefund {
  import opened Wrappers
  import opened DateTimes
  import opened Companies

  const UserRemoveTransition: string := "workflow.user_event_state.transition.user_remove"
  const UserRemoveHandler: string := "onUserRemove"

  /** getSubscribedEvents: one workflow transition, one handler. */
  function SubscribedEvents(): (m: map<string, string>)
    ensures m.Keys == {UserRemoveTransition}
    ensures m[UserRemoveTransition] == UserRemoveHandler
  {
    map[UserRemoveTransition := UserRemoveHandler]
  }

  /** EVENT_POINTS_REFUND_HOURS and EVENT_POINTS_REFUND_COMMISSION. */
  datatype RefundConfig = RefundConfig(refundHours: int, refundPercent: int)

  /** What the handler reads through the booking: its commission, the start
      of its event and the company owning that event. */
  datatype Booking = Booking(eventStart: Time, owner: Company, commission: int)

  /** The transition's subject: a booking or any other object. */
  datatype Subject = BookingSubject(booking: Booking) | OtherSubject

  /** Integer division truncating toward zero, as PHP's float-to-int conversion does. */
  function TruncDiv(a: int, b: int): (q: int)
    requires b > 0
    ensures a >= 0 ==> 0 <= q && q * b <= a < (q + 1) * b
    ensures a < 0 ==> q <= 0 && (q - 1) * b < a <= q * b
  {
    var m := Abs(a) / b;
    DivBounds(Abs(a), b);
    MulShift(m, b);
    MulShift(-m, b);
    if a >= 0 then m else -m
  }

  lemma DivBounds(n: int, b: int)
    requires n >= 0 && b > 0
    ensures 0 <= n / b && (n / b) * b <= n < (n / b) * b + b
  {
    assert n == (n / b) * b + n % b;
  }

  lemma MulShift(q: int, b: int)
    ensures (q + 1) * b == q * b + b && (q - 1) * b == q * b - b && (-q) * b == -(q * b)
  {
  }

  /** getPointsRefundCommission: `percent` per cent of the commission, the
      fractional part dropped. */
  function RefundCommission(commission: int, percent: int): (r: int)
    ensures 0 <= percent <= 100 && commission >= 0 ==> 0 <= r <= commission
    ensures commission * percent >= 0 ==> r * 100 <= commission * percent < (r + 1) * 100
    ensures commission * percent < 0 ==> (r - 1) * 100 < commission * percent <= r * 100
  {
    TruncDiv(commission * percent, 100)
  }

  /** `$difference->h + $difference->days * 24`: the whole hours between now
      and the start, whichever comes first. */
  function ElapsedHours(now: Time, start: Time): (hours: nat)
    ensures hours == Abs(start - now) / SecondsPerHour
    ensures hours * SecondsPerHour <= Abs(start - now) < (hours + 1) * SecondsPerHour
  {
    var d := Diff(now, start);
    DiffWholeHours(now, start);
    d.h + d.days * 24
  }

  /** onUserRemove: the updated owner when a refund is credited, None when
      nothing is written (not a booking, or too close to the start). */
  function OnUserRemove(subject: Subject, now: Time, cfg: RefundConfig): (r: Option<Company>)
    ensures subject.OtherSubject? ==> r.None?
    ensures subject.BookingSubject? ==>
              (r.Some? <==> Abs(subject.booking.eventStart - now) / SecondsPerHour >= cfg.refundHours)
    ensures r.Some? ==>
              r.value.balance == subject.booking.owner.balance
                                 + RefundCommission(subject.booking.commission, cfg.refundPercent)
    ensures r.Some? ==> r.value.(balance := subject.booking.owner.balance) == subject.booking.owner
  {
    match subject
    case OtherSubject => None
    case BookingSubject(b) =>
      if ElapsedHours(now, b.eventStart) >= cfg.refundHours then
        Some(IncrementBalance(b.owner, RefundCommission(b.commission, cfg.refundPercent)))
      else None
  }

  /** The sign of the difference is lost: an event that started long ago
      counts like one that starts equally far in the future. */
  lemma PastStartAlsoRefunds(b: Booking, now: Time, cfg: RefundConfig)
    requires now - b.eventStart >= cfg.refundHours * SecondsPerHour
    requires cfg.refundHours >= 0
    ensures OnUserRemove(BookingSubject(b), now, cfg).Some?
  {
    var hours := ElapsedHours(now, b.eventStart);
    assert hours * SecondsPerHour + SecondsPerHour > cfg.refundHours * SecondsPerHour;
  }

  /** Ten per cent of a 1000-point commission is exactly 100 points. */
  lemma RefundTenPercentOfThousand(b: Booking, now: Time, cfg: RefundConfig)
    requires b.commission == 1000 && cfg.refundPercent == 10
    requires ElapsedHours(now, b.eventStart) >= cfg.refundHours
    ensures OnUserRemove(BookingSubject(b), now, cfg) == Some(b.owner.(balance := b.owner.balance + 100))
  {
  }
}

=== FILE: seqs.dfy ===
/** Sequence helpers standing in for PHP array and Doctrine collection operations. */
module Seqs {

  /** The elements of `s` satisfying `p`, in their original order
      (array_filter / array_diff / a WHERE clause over a table scan). */
  function Filter<T(!new)>(s: seq<T>, p: T -> bool): (r: seq<T>)
    ensures |r| <= |s|
    ensures forall x :: x in r <==> x in s && p(x)
    ensures forall k :: 0 <= k < |r| ==> p(r[k])
  {
    if |s| == 0 then []
    else
      assert s == [s[0]] + s[1..];
      (if p(s[0]) then [s[0]] else []) + Filter(s[1..], p)
  }

  /** Filtering keeps every element satisfying `p` with its multiplicity
      and drops every other one. */
  lemma {:induction false} FilterCounts<T(!new)>(s: seq<T>, p: T -> bool)
    ensures forall x :: multiset(Filter(s, p))[x] == if p(x) then multiset(s)[x] else 0
    decreases |s|
  {
    if |s| > 0 {
      var head := if p(s[0]) then [s[0]] else [];
      FilterCounts(s[1..], p);
      assert s == [s[0]] + s[1..];
      assert multiset(s) == multiset{s[0]} + multiset(s[1..]);
      assert multiset(Filter(s, p)) == multiset(head) + multiset(Filter(s[1..], p));
    }
  }

  /** One step of filtering a concatenation whose left part is not empty. */
  lemma FilterConcatStep<T(!new)>(a: seq<T>, b: seq<T>, p: T -> bool)
    requires |a| > 0
    ensures Filter(a + b, p) == (if p(a[0]) then [a[0]] else []) + Filter(a[1..] + b, p)
  {
    assert (a + b)[1..] == a[1..] + b;
    assert (a + b)[0] == a[0];
  }

  /** Filtering distributes over concatenation: it keeps relative order. */
  lemma {:induction false} FilterConcat<T(!new)>(a: seq<T>, b: seq<T>, p: T -> bool)
    ensures Filter(a + b, p) == Filter(a, p) + Filter(b, p)
    decreases |a|
  {
    if |a| == 0 {
      assert a + b == b;
    } else {
      var head := if p(a[0]) then [a[0]] else [];
      FilterConcatStep(a, b, p);
      FilterConcat(a[1..], b, p);
      assert head + (Filter(a[1..], p) + Filter(b, p)) == (head + Filter(a[1..], p)) + Filter(b, p);
    }
  }

  /** Filtering with a predicate no element satisfies leaves nothing. */
  lemma {:induction false} FilterNone<T(!new)>(s: seq<T>, p: T -> bool)
    requires forall k :: 0 <= k < |s| ==> !p(s[k])
    ensures Filter(s, p) == []
    decreases |s|
  {
    if |s| > 0 {
      FilterNone(s[1..], p);
    }
  }

  /** Filtering with a predicate every element satisfies changes nothing. */
  lemma {:induction false} FilterAll<T(!new)>(s: seq<T>, p: T -> bool)
    requires forall k :: 0 <= k < |s| ==> p(s[k])
    ensures Filter(s, p) == s
    decreases |s|
  {
    if |s| > 0 {
      FilterAll(s[1..], p);
    }
  }

  /** Filtering depends only on the values the predicate takes. */
  lemma {:induction false} FilterCongruent<T(!new)>(s: seq<T>, p: T -> bool, q: T -> bool)
    requires forall x :: p(x) == q(x)
    ensures Filter(s, p) == Filter(s, q)
    decreases |s|
  {
    if |s| > 0 {
      FilterCongruent(s[1..], p, q);
    }
  }

  /** `s` with its first occurrence of `x` removed (ArrayCollection::removeElement). */
  function RemoveFirst<T(==)>(s: seq<T>, x: T): (r: seq<T>)
    ensures x !in s ==> r == s
    ensures x in s ==> |r| == |s| - 1
    ensures multiset(r) == multiset(s) - multiset{x}
  {
    if |s| == 0 then []
    else if s[0] == x then
      assert s == [s[0]] + s[1..];
      s[1..]
    else
      assert s == [s[0]] + s[1..];
      [s[0]] + RemoveFirst(s[1..], x)
  }

  /** Removing an element just appended to a sequence lacking it gives the sequence back. */
  lemma {:induction false} RemoveFirstAppended<T>(s: seq<T>, x: T)
    requires x !in s
    ensures RemoveFirst(s + [x], x) == s
    decreases |s|
  {
    if |s| > 0 {
      assert (s + [x])[1..] == s[1..] + [x];
      RemoveFirstAppended(s[1..], x);
    }
  }
}

=== FILE: user_repository.dfy ===
/** UserRepository: the WHERE clauses its query builders add, and the users
    the resulting query selects. A query is a list of clauses joined by AND;
    running it keeps, in table order, the users satisfying every clause.
    Pagination (the `paginate` helper) is not part of this model: the
    functions return the unpaginated selection. */
module UserRepository {
  import opened Wrappers
  import opened Seqs
  import opened Chars

  type UserId = nat
  type CompanyId = nat

  /** A calendar date, ordered year, then month, then day. */
  datatype Date = Date(year: int, month: int, day: int)

  predicate DateLe(a: Date, b: Date)
  {
    a.year < b.year || (a.year == b.year && (a.month < b.month || (a.month == b.month && a.day <= b.day)))
  }

  /** A stored geographic point. */
  datatype Point = Point(latitude: real, longitude: real)

  /** The requested origin of a distance search: the raw `latitude` and
      `longitude` parameters, which the query formats into `POINT(%f %f)`. */
  datatype Origin = Origin(latitude: string, longitude: string)

  /** The joined user profile (a left join: it may be missing). */
  datatype Profile = Profile(gender: Option<int>, point: Option<Point>, birthDate: Option<Date>)

  /** A user's link to a company, with the company's status for that user. */
  datatype CompanyLink = CompanyLink(company: CompanyId, companyStatus: int)

  datatype User = User(id: UserId, companies: seq<CompanyLink>, profile: Option<Profile>, ratingTotal: int)

  // ------------------------------------------------------ by company status

  predicate HasCompanyStatus(u: User, company: CompanyId, status: int)
  {
    exists k :: 0 <= k < |u.companies| && u.companies[k].company == company && u.companies[k].companyStatus == status
  }

  /** findUserCompanyByStatus: the users with a link to the company carrying
      the status; the join is hydrated back into users, so each appears once
      per table row whatever the number of matching links. */
  function FindUserCompanyByStatus(users: seq<User>, company: CompanyId, status: int): (r: seq<User>)
    ensures forall u :: u in r <==> u in users && HasCompanyStatus(u, company, status)
    ensures forall u :: multiset(r)[u] == if HasCompanyStatus(u, company, status) then multiset(users)[u] else 0
  {
    FilterCounts(users, u => HasCompanyStatus(u, company, status));
    Filter(users, u => HasCompanyStatus(u, company, status))
  }

  // -------------------------------------------------------- request values

  /** PHP truthiness of a request parameter: absent, "" and "0" are false. */
  predicate Truthy(p: Option<string>)
  {
    p.Some? && p.value != "" && p.value != "0"
  }

  /** The leading decimal digits of a string. */
  function DigitPrefix(s: string): (ds: string)
    ensures AllDigits(ds) && |ds| <= |s| && ds == s[..|ds|]
    ensures |ds| < |s| ==> !IsDigit(s[|ds|])
  {
    if |s| == 0 || !IsDigit(s[0]) then []
    else [s[0]] + DigitPrefix(s[1..])
  }

  function DecimalValue(ds: string): nat
    requires AllDigits(ds)
  {
    if |ds| == 0 then 0 else DecimalValue(ds[..|ds| - 1]) * 10 + DigitValue(ds[|ds| - 1])
  }

  /** A parameter read as an integer: the value of its leading digits, as
      PHP's `%d` and integer binding and MySQL's string comparison read a
      digit string. */
  function NumericValue(p: Option<string>): nat
  {
    if p.None? then 0 else DecimalValue(DigitPrefix(p.value))
  }

  // --------------------------------------------------------------- clauses

  /** The WHERE clauses the builders can add. */
  datatype Clause =
    | GenderIs(gender: int)                    // up.gender = :gender
    | RateAtLeast(rate: nat)                   // u.ratingTotal >= :rate
    | DistanceBetween(distFrom: nat, distTo: nat, origin: Origin)  // ST_Distance_Sphere(...) BETWEEN
    | BirthBetween(start: Date, end: Date)     // up.birthDate BETWEEN
    | IdIn(ids: seq<UserId>)                   // u.id IN (:ids)

  /** Whether a user satisfies a clause; `distance(o, q)` is the spherical
      distance from the requested origin `o` to a stored point `q`. A missing profile or
      column makes the comparison NULL, which no row passes. */
  predicate Holds(c: Clause, u: User, distance: (Origin, Point) -> real)
  {
    match c
    case GenderIs(g) => u.profile.Some? && u.profile.value.gender == Some(g)
    case RateAtLeast(n) => u.ratingTotal >= n
    case DistanceBetween(lo, hi, o) =>
      u.profile.Some? && u.profile.value.point.Some? &&
      lo as real <= distance(o, u.profile.value.point.value) <= hi as real
    case BirthBetween(start, end) =>
      u.profile.Some? && u.profile.value.birthDate.Some? &&
      DateLe(start, u.profile.value.birthDate.value) && DateLe(u.profile.value.birthDate.value, end)
    case IdIn(ids) => u.id in ids
  }

  predicate HoldsAll(cs: seq<Clause>, u: User, distance: (Origin, Point) -> real)
  {
    forall k :: 0 <= k < |cs| ==> Holds(cs[k], u, distance)
  }

  /** Running a query: the users passing every clause, in table order. */
  function Run(cs: seq<Clause>, users: seq<User>, distance: (Origin, Point) -> real): (r: seq<User>)
    ensures forall u :: u in r <==> u in users && HoldsAll(cs, u, distance)
    ensures forall u :: multiset(r)[u] == if HoldsAll(cs, u, distance) then multiset(users)[u] else 0
  {
    FilterCounts(users, u => HoldsAll(cs, u, distance));
    Filter(users, u => HoldsAll(cs, u, distance))
  }

  // ------------------------------------------------------------ favourites

  /** The request parameters findFavouritesWithFilters reads. */
  datatype FavouriteParams = FavouriteParams(
    gender: Option<string>,
    ageFrom: Option<string>,
    ageTo: Option<string>,
    distFrom: Option<string>,
    distTo: Option<string>,
    latitude: Option<string>,
    longitude: Option<string>,
    rate: Option<string>)

  predicate GenderActive(p: FavouriteParams)
  {
    p.gender == Some("0") || p.gender == Some("1")
  }

  predicate DistanceActive(p: FavouriteParams)
  {
    Truthy(p.distFrom) && Truthy(p.distTo) && Truthy(p.latitude) && Truthy(p.longitude)
  }

  predicate AgeActive(p: FavouriteParams)
  {
    Truthy(p.ageFrom) && Truthy(p.ageTo)
  }

  /** The distance clause of an active distance filter, measured from the
      requested point. */
  function DistanceClause(p: FavouriteParams): Clause
    requires DistanceActive(p)
  {
    DistanceBetween(NumericValue(p.distFrom), NumericValue(p.distTo), Origin(p.latitude.value, p.longitude.value))
  }

  /** The clause each optional filter adds: one clause when it is active,
      none otherwise. */
  function GenderPart(p: FavouriteParams): (cs: seq<Clause>)
    ensures |cs| <= 1 && (|cs| == 1 <==> GenderActive(p))
    ensures forall k :: 0 <= k < |cs| ==> cs[k].GenderIs?
  {
    if GenderActive(p) then [GenderIs(if p.gender == Some("0") then 0 else 1)] else []
  }

  function RatePart(p: FavouriteParams): (cs: seq<Clause>)
    ensures |cs| <= 1 && (|cs| == 1 <==> Truthy(p.rate))
    ensures forall k :: 0 <= k < |cs| ==> cs[k].RateAtLeast?
  {
    if Truthy(p.rate) then [RateAtLeast(NumericValue(p.rate))] else []
  }

  function DistancePart(p: FavouriteParams): (cs: seq<Clause>)
    ensures |cs| <= 1 && (|cs| == 1 <==> DistanceActive(p))
    ensures forall k :: 0 <= k < |cs| ==> cs[k].DistanceBetween?
  {
    if DistanceActive(p) then [DistanceClause(p)] else []
  }

  function AgePart(p: FavouriteParams, currentYear: int): (cs: seq<Clause>)
    ensures |cs| <= 1 && (|cs| == 1 <==> AgeActive(p))
    ensures forall k :: 0 <= k < |cs| ==> cs[k].BirthBetween?
  {
    if AgeActive(p) then
      [BirthBetween(Date(currentYear - NumericValue(p.ageTo), 1, 1), Date(currentYear - NumericValue(p.ageFrom), 12, 31))]
    else []
  }

  /** The clauses, in the order the builder adds them. */
  function FavouriteClauses(p: FavouriteParams, favourites: seq<UserId>, currentYear: int): (cs: seq<Clause>)
    ensures |cs| >= 1 && cs[|cs| - 1] == IdIn(favourites)
    ensures GenderActive(p) <==> exists c :: c in cs && c.GenderIs?
    ensures Truthy(p.rate) <==> exists c :: c in cs && c.RateAtLeast?
    ensures DistanceActive(p) <==> exists c :: c in cs && c.DistanceBetween?
    ensures AgeActive(p) <==> exists c :: c in cs && c.BirthBetween?
  {
    var gender := GenderPart(p);
    var rate := RatePart(p);
    var dist := DistancePart(p);
    var age := AgePart(p, currentYear);
    var last := [IdIn(favourites)];
    var cs := gender + rate + dist + age + last;
    ClauseKinds(gender, rate, dist, age, last);
    cs
  }

  /** In the query, each kind of clause occurs iff the part holding that
      kind is not empty. */
  lemma ClauseKinds(g: seq<Clause>, r: seq<Clause>, d: seq<Clause>, a: seq<Clause>, l: seq<Clause>)
    requires forall k :: 0 <= k < |g| ==> g[k].GenderIs?
    requires forall k :: 0 <= k < |r| ==> r[k].RateAtLeast?
    requires forall k :: 0 <= k < |d| ==> d[k].DistanceBetween?
    requires forall k :: 0 <= k < |a| ==> a[k].BirthBetween?
    requires forall k :: 0 <= k < |l| ==> l[k].IdIn?
    ensures |g| > 0 <==> exists c :: c in g + r + d + a + l && c.GenderIs?
    ensures |r| > 0 <==> exists c :: c in g + r + d + a + l && c.RateAtLeast?
    ensures |d| > 0 <==> exists c :: c in g + r + d + a + l && c.DistanceBetween?
    ensures |a| > 0 <==> exists c :: c in g + r + d + a + l && c.BirthBetween?
  {
    var cs := g + r + d + a + l;
    assert forall c :: c in cs <==> c in g || c in r || c in d || c in a || c in l;
    if |g| > 0 { assert g[0] in cs; }
    if |r| > 0 { assert r[0] in cs; }
    if |d| > 0 { assert d[0] in cs; }
    if |a| > 0 { assert a[0] in cs; }
  }

  /** What a user must satisfy to be selected, filter by filter. */
  predicate FavouriteMatch(u: User, p: FavouriteParams, favourites: seq<UserId>, currentYear: int,
                           distance: (Origin, Point) -> real)
  {
    && u.id in favourites
    && (GenderActive(p) ==> Holds(GenderIs(if p.gender == Some("0") then 0 else 1), u, distance))
    && (Truthy(p.rate) ==> u.ratingTotal >= NumericValue(p.rate))
    && (DistanceActive(p) ==> Holds(DistanceClause(p), u, distance))
    && (AgeActive(p) ==>
          Holds(BirthBetween(Date(currentYear - NumericValue(p.ageTo), 1, 1),
                             Date(currentYear - NumericValue(p.ageFrom), 12, 31)), u, distance))
  }

  /** A user passes a concatenation of clauses iff they pass both parts. */
  lemma HoldsAllConcat(a: seq<Clause>, b: seq<Clause>, u: User, distance: (Origin, Point) -> real)
    ensures HoldsAll(a + b, u, distance) <==> HoldsAll(a, u, distance) && HoldsAll(b, u, distance)
  {
    if HoldsAll(a + b, u, distance) {
      forall k | 0 <= k < |a|
        ensures Holds(a[k], u, distance)
      {
        assert (a + b)[k] == a[k];
      }
      forall k | 0 <= k < |b|
        ensures Holds(b[k], u, distance)
      {
        assert (a + b)[|a| + k] == b[k];
      }
    }
  }

  lemma FavouriteClausesMeaning(p: FavouriteParams, favourites: seq<UserId>, currentYear: int,
                                u: User, distance: (Origin, Point) -> real)
    ensures HoldsAll(FavouriteClauses(p, favourites, currentYear), u, distance) <==>
              FavouriteMatch(u, p, favourites, currentYear, distance)
  {
    var g, r, d, a := GenderPart(p), RatePart(p), DistancePart(p), AgePart(p, currentYear);
    var last := [IdIn(favourites)];
    assert FavouriteClauses(p, favourites, currentYear) == g + r + d + a + last;
    HoldsAllConcat(g + r + d + a, last, u, distance);
    HoldsAllConcat(g + r + d, a, u, distance);
    HoldsAllConcat(g + r, d, u, distance);
    HoldsAllConcat(g, r, u, distance);
    assert HoldsAll(last, u, distance) <==> Holds(last[0], u, distance);
    assert HoldsAll(g, u, distance) <==> (GenderActive(p) ==> Holds(g[0], u, distance));
    assert HoldsAll(r, u, distance) <==> (Truthy(p.rate) ==> Holds(r[0], u, distance));
    assert HoldsAll(d, u, distance) <==> (DistanceActive(p) ==> Holds(d[0], u, distance));
    assert HoldsAll(a, u, distance) <==> (AgeActive(p) ==> Holds(a[0], u, distance));
  }

  /** findFavouritesWithFilters before pagination: exactly the users listed
      among the favourites that pass every active filter, in table order. */
  function FindFavouritesWithFilters(users: seq<User>, p: FavouriteParams, favourites: seq<UserId>,
                                     currentYear: int, distance: (Origin, Point) -> real): (r: seq<User>)
    ensures forall u :: u in r <==> u in users && FavouriteMatch(u, p, favourites, currentYear, distance)
    ensures forall u :: u in r ==> u.id in favourites
  {
    var cs := FavouriteClauses(p, favourites, currentYear);
    var r := Run(cs, users, distance);
    assert forall u :: HoldsAll(cs, u, distance) <==> FavouriteMatch(u, p, favourites, currentYear, distance) by {
      forall u
        ensures HoldsAll(cs, u, distance) <==> FavouriteMatch(u, p, favourites, currentYear, distance)
      {
        FavouriteClausesMeaning(p, favourites, currentYear, u, distance);
      }
    }
    r
  }

  /** Two requests whose active filters select the same users give the same
      result, in the same order. The SQL has no ORDER BY: the order here is
      the model's table order, which both runs share; without it the claim
      is that the same rows come back. */
  lemma SameMatchSameResult(users: seq<User>, p: FavouriteParams, p': FavouriteParams, favourites: seq<UserId>,
                            currentYear: int, distance: (Origin, Point) -> real)
    requires forall u :: FavouriteMatch(u, p, favourites, currentYear, distance) ==
                         FavouriteMatch(u, p', favourites, currentYear, distance)
    ensures FindFavouritesWithFilters(users, p, favourites, currentYear, distance) ==
            FindFavouritesWithFilters(users, p', favourites, currentYear, distance)
  {
    var cs := FavouriteClauses(p, favourites, currentYear);
    var cs' := FavouriteClauses(p', favourites, currentYear);
    forall u
      ensures HoldsAll(cs, u, distance) == HoldsAll(cs', u, distance)
    {
      FavouriteClausesMeaning(p, favourites, currentYear, u, distance);
      FavouriteClausesMeaning(p', favourites, currentYear, u, distance);
    }
    FilterCongruent(users, u => HoldsAll(cs, u, distance), u => HoldsAll(cs', u, distance));
  }

  /** A gender other than "0" or "1" restricts nothing: the result is that
      of a request without gender. */
  lemma GenderIgnoredUnlessBinary(users: seq<User>, p: FavouriteParams, favourites: seq<UserId>,
                                  currentYear: int, distance: (Origin, Point) -> real)
    requires !GenderActive(p)
    ensures FindFavouritesWithFilters(users, p, favourites, currentYear, distance) ==
            FindFavouritesWithFilters(users, p.(gender := None), favourites, currentYear, distance)
  {
    SameMatchSameResult(users, p, p.(gender := None), favourites, currentYear, distance);
  }

  /** A dist_from of "0" switches the distance filter off altogether. */
  lemma ZeroDistFromDisablesDistance(users: seq<User>, p: FavouriteParams, favourites: seq<UserId>,
                                     currentYear: int, distance: (Origin, Point) -> real)
    requires p.distFrom == Some("0")
    ensures FindFavouritesWithFilters(users, p, favourites, currentYear, distance) ==
            FindFavouritesWithFilters(users, p.(distFrom := None, distTo := None, latitude := None, longitude := None),
                                      favourites, currentYear, distance)
  {
    SameMatchSameResult(users, p, p.(distFrom := None, distTo := None, latitude := None, longitude := None),
                        favourites, currentYear, distance);
  }

  /** A falsy rate ("", "0" or absent) restricts nothing. */
  lemma RateIgnoredUnlessTruthy(users: seq<User>, p: FavouriteParams, favourites: seq<UserId>,
                                currentYear: int, distance: (Origin, Point) -> real)
    requires !Truthy(p.rate)
    ensures FindFavouritesWithFilters(users, p, favourites, currentYear, distance) ==
            FindFavouritesWithFilters(users, p.(rate := None), favourites, currentYear, distance)
  {
    SameMatchSameResult(users, p, p.(rate := None), favourites, currentYear, distance);
  }

  /** The age filter needs both bounds: with either one falsy, age restricts nothing. */
  lemma AgeIgnoredUnlessBothBounds(users: seq<User>, p: FavouriteParams, favourites: seq<UserId>,
                                   currentYear: int, distance: (Origin, Point) -> real)
    requires !Truthy(p.ageFrom) || !Truthy(p.ageTo)
    ensures FindFavouritesWithFilters(users, p, favourites, currentYear, distance) ==
            FindFavouritesWithFilters(users, p.(ageFrom := None, ageTo := None), favourites, currentYear, distance)
  {
    SameMatchSameResult(users, p, p.(ageFrom := None, ageTo := None), favourites, currentYear, distance);
  }

  /** When active, the distance range includes both of its ends. */
  lemma DistanceRangeInclusive(u: User, lo: nat, hi: nat, o: Origin, distance: (Origin, Point) -> real)
    requires u.profile.Some? && u.profile.value.point.Some?
    requires distance(o, u.profile.value.point.value) == lo as real || distance(o, u.profile.value.point.value) == hi as real
    requires lo <= hi
    ensures Holds(DistanceBetween(lo, hi, o), u, distance)
  {
  }

  /** With the distance filter active, a favourite passing the other filters
      is selected exactly when it has a stored point whose distance from the
      requested latitude and longitude lies within [dist_from, dist_to]. */
  lemma DistanceFromRequestedPoint(users: seq<User>, p: FavouriteParams, favourites: seq<UserId>,
                                   currentYear: int, distance: (Origin, Point) -> real, u: User)
    requires DistanceActive(p) && u in users
    requires FavouriteMatch(u, p.(distFrom := None), favourites, currentYear, distance)
    ensures u in FindFavouritesWithFilters(users, p, favourites, currentYear, distance) <==>
              u.profile.Some? && u.profile.value.point.Some? &&
              NumericValue(p.distFrom) as real
                <= distance(Origin(p.latitude.value, p.longitude.value), u.profile.value.point.value)
                <= NumericValue(p.distTo) as real
  {
    var q := p.(distFrom := None);
    assert AgeActive(q) == AgeActive(p) && GenderActive(q) == GenderActive(p) && q.rate == p.rate;
    assert FavouriteMatch(u, p, favourites, currentYear, distance) <==> Holds(DistanceClause(p), u, distance);
  }

  /** With both age bounds given, a user passes the age filter exactly when
      born between 1 January of (year - age_to) and 31 December of
      (year - age_from), by birth year alone. */
  lemma AgeWindow(u: User, p: FavouriteParams, currentYear: int, distance: (Origin, Point) -> real)
    requires AgeActive(p) && u.profile.Some? && u.profile.value.birthDate.Some?
    requires var d := u.profile.value.birthDate.value; 1 <= d.month <= 12 && 1 <= d.day <= 31
    ensures Holds(BirthBetween(Date(currentYear - NumericValue(p.ageTo), 1, 1),
                               Date(currentYear - NumericValue(p.ageFrom), 12, 31)), u, distance)
            <==> currentYear - NumericValue(p.ageTo) <= u.profile.value.birthDate.value.year
                   <= currentYear - NumericValue(p.ageFrom)
  {
  }

  // ------------------------------------------------------------- blacklist

  /** findBlacklistWithFilters before pagination: exactly the listed users.
      Its only clause is the id restriction, which measures no distance, so
      the query runs with a distance function that is never consulted. */
  function FindBlacklistWithFilters(users: seq<User>, blacklisted: seq<UserId>): (r: seq<User>)
    ensures forall u :: u in r <==> u in users && u.id in blacklisted
    ensures forall u :: multiset(r)[u] == if u.id in blacklisted then multiset(users)[u] else 0
  {
    var distance := (o: Origin, q: Point) => 0.0;
    var cs := [IdIn(blacklisted)];
    assert forall u :: HoldsAll(cs, u, distance) <==> u.id in blacklisted by {
      forall u
        ensures HoldsAll(cs, u, distance) <==> u.id in blacklisted
      {
        assert Holds(cs[0], u, distance) <==> u.id in blacklisted;
      }
    }
    Run(cs, users, distance)
  }
}

=== FILE: wrappers.dfy ===
/** Failure-carrying datatypes shared by the whole model. */
module Wrappers {

  /** A value that may be absent: PHP's nullable fields and parameters. */
  datatype Option<+T> = None | Some(value: T)

  /** Either a computed value or the error the source raises instead. */
  datatype Result<+R, +E> = Success(value: R) | Failure(error: E)
}
